=== FILE: README.md ===
# FIN ESTATE upload flow, modelled in Dafny

This project models the logic of the FIN ESTATE web application that does
more than render markup:

- **The Next.js upload route** (`POST /api/upload`):
  - It reads the body and picks a file name. The name comes from the
    `x-filename` header, or is `"upload-<Date.now()>.pdf"` when the header
    is missing or empty.
  - It percent-decodes the name with `decodeURIComponent`. A malformed
    escape throws, and the route answers 500.
  - It keeps the name's POSIX basename and appends the lower-cased
    extension (".pdf" when there is none) unless the name already ends
    with it.
  - It writes the bytes into `public/uploads`.
  - It runs `pdf-parse` only on bytes whose first four octets read
    "%PDF".
  - It answers 200 with `{ok, path, text, parseError}`.
- **The dashboard's `GraphBox` condition bar.** The rating is clamped into
  0..5, and the first that many of five bars are filled.
- **The home page's `handleSubmit`.** It is a small state machine over
  `{message, uploadedUrl, uploading}`:
  - two guards, for no file and for a non-PDF file;
  - one `fetch` of the upload route, whose outcome is an input.
- **The Flask `POST /upload` route, up to its empty-body check.** It tests
  the header and the body, then builds the save path as
  `os.path.join("uploads", unquote(header))`. There is no basename step.

The library behaviour these depend on is modelled too:

- `encodeURIComponent`;
- `decodeURIComponent`, including its UTF-8 checks (section 3 of RFC
  3629, no overlong forms, no surrogates);
- Python's `unquote`, which replaces bad UTF-8 with U+FFFD;
- Node's `Buffer.toString("utf8")`, which uses the same maximal-subpart
  replacement;
- Node's `path.basename` and `path.extname`;
- Python's two-argument `posixpath.join`;
- the way a POSIX file system resolves a path string against a directory
  (`Split`, `Walk`, `Resolve`).

The uploads directory is a `map<string, seq<byte>>` from file name to
contents. Everything outside the code is an input:

- the clock;
- a failure to read the body;
- a failure of `mkdir` or `writeFile`;
- what `pdf-parse` returns or throws;
- what `fetch` and `res.json()` produce.

Modules:

- `Common`: octets, `Option`, `Result`, and string predicates.
- `Utf8`: scalar encoding, the strict decoding `decodeURIComponent` does,
  and lossy decoding.
- `PercentEncoding`: "%XY" escapes as in section 2.1 of RFC 3986.
- `UriComponent`: `encodeURIComponent` and `decodeURIComponent`.
- `PyUnquote`: Python's `unquote`.
- `PosixPath`: basename, extname, ASCII lower case, path resolution and
  `posixpath.join`.
- `UploadRoute`: the Next.js route.
- `GraphBox`: the condition bar.
- `UploadForm`: `handleSubmit`.
- `FlaskUpload`: the Flask route.
- `EndToEnd`: what each server makes of the header the form sends.

Three points of the route are easy to misread:

- The comment at `src/app/api/upload/route.js:40-45` calls the guard a check
  of the "%PDF" header. Lines 50-51 compare the UTF-8 decoding of the first
  four octets with the string "%PDF". `UploadRoute.SniffIsMagicCheck` proves
  that this is the same as testing the four octets.
- Lines 27-28 do more than supply ".pdf" for a name without an extension.
  They append the lower-cased extension whenever the name does not already
  end with it, so "A.PDF" is stored as "A.PDF.pdf".
- A header that does not percent-decode throws at line 24, and the route
  answers 500 from its `catch` at lines 83-90, just as for a failed write.

## Model

| member | source | states |
|---|---|---|
| UploadRoute.Post | src/app/api/upload/route.js:12-92 | The answer is 200 exactly when the body was read, the header decoded and the write succeeded. A 500 leaves the uploads map as it was. A 200 stores the body under the stored name and changes no other entry, overwriting any earlier file of that name; its path is `PublicPath` of that name, and its text and parseError come from the sniff and the parser. |
| UploadRoute.TargetName | src/app/api/upload/route.js:23-28 | There is no stored name exactly when `decodeURIComponent` of the raw name throws. |
| UploadRoute.DefaultName | src/app/api/upload/route.js:23 | The made-up name starts with "upload-" and ends with ".pdf". `UploadRoute.DefaultNameUsed` shows that it is the stored name whenever the header is missing or empty. |
| UploadRoute.RawName | src/app/api/upload/route.js:23 | The raw name is never empty, and a non-empty header is taken as it is. A missing or empty header falls back to `DefaultName`, as `UploadRoute.DefaultNameUsed` states. |
| UploadRoute.StoredName | src/app/api/upload/route.js:24-28 | The stored name has no `/`, is never "", "." or "..", ends with the chosen extension and starts with the basename of the decoded name. |
| UploadRoute.Extension | src/app/api/upload/route.js:27 | The extension used is a dot, possibly on its own (a name ending in "." has the extension "."), with no separator. It is as long as `extname` when that is non-empty, and is ".pdf" otherwise. |
| UploadRoute.DefaultNameUsed | src/app/api/upload/route.js:23 | A missing or empty header makes the stored name exactly "upload-" + decimal timestamp + ".pdf". |
| UploadRoute.StoredNameStaysInside | src/app/api/upload/route.js:31-37 | For every header that decodes, the stored name, resolved inside the uploads directory, names an entry directly in that directory. |
| UploadRoute.StoredNameOfBasename | src/app/api/upload/route.js:24-28 | Only the basename of the decoded name decides the stored name. |
| UploadRoute.NoExtensionGetsPdf | src/app/api/upload/route.js:27-28 | A slash-free name without an extension, other than ".pdf" itself (whose dot is its first character and which already ends with ".pdf"), gets ".pdf" appended. |
| UploadRoute.LowerCaseExtensionKept | src/app/api/upload/route.js:27-28 | A name whose extension has no upper-case letter is stored unchanged. |
| UploadRoute.UpperCaseExtensionAppended | src/app/api/upload/route.js:27-28 | A name whose extension has an upper-case letter gets the lower-cased extension appended. |
| UploadRoute.DottedNameKept | src/app/api/upload/route.js:27-28 | Any name "x.e" with a lower-case extension is stored as it is. |
| UploadRoute.DottedNameAppended | src/app/api/upload/route.js:27-28 | Any name "x.E" whose extension has an upper-case letter is stored as "x.E.e". |
| UploadRoute.LowerCaseExample | src/app/api/upload/route.js:27-28 | "a.pdf" is stored as "a.pdf". |
| UploadRoute.UpperCaseExample | src/app/api/upload/route.js:27-28 | "A.PDF" is stored as "A.PDF.pdf". |
| UploadRoute.NoExtensionExample | src/app/api/upload/route.js:27-28 | "report" is stored as "report.pdf". |
| UploadRoute.TraversalNameFlattened | src/app/api/upload/route.js:23-28 | The header "../../etc/passwd" gives the stored name "passwd.pdf". |
| UploadRoute.MalformedHeaderRejected | src/app/api/upload/route.js:83-90 | The header "report%.pdf", whose `%` starts no escape, gives a 500 with the URIError text and leaves the uploads map unchanged, whatever the body and the clock. |
| UploadRoute.SniffIsMagicCheck | src/app/api/upload/route.js:50-51 | The 4-octet prefix decodes to the string "%PDF" exactly when there are at least four octets and they are 0x25 0x50 0x44 0x46. |
| UploadRoute.SniffedHeader | src/app/api/upload/route.js:50 | The sniffed header has at most four characters, and never more than the buffer has octets. `UploadRoute.SniffIsMagicCheck` states when it reads "%PDF". |
| UploadRoute.LooksLikePdf | src/app/api/upload/route.js:51 | Only a buffer of at least four octets passes the guard. `UploadRoute.SniffIsMagicCheck` shows that it passes exactly when those octets are the magic 0x25 0x50 0x44 0x46. |
| UploadRoute.NonPdfSkipsParser | src/app/api/upload/route.js:49-55 | With the body read and the write succeeding, the answer is 200 exactly when the name decodes. Bytes without the magic then give empty text and the fixed diagnostic, and the answer is the same whatever the parser would do. |
| UploadRoute.Extract | src/app/api/upload/route.js:46-70 | parseError is null only when the buffer looks like a PDF and the parser returned. Text is non-empty only in that case. `UploadRoute.NonPdfSkipsParser` and `UploadRoute.PdfIsParsed` give the answer in each branch. |
| UploadRoute.PdfIsParsed | src/app/api/upload/route.js:56-70 | Bytes with the magic are parsed. With the body read and the write succeeding, the answer is 200 exactly when the name decodes, whatever the parser does. A throw gives empty text and the error's message, or its rendering when the message is empty. A result gives its text, or "", and no parseError. |
| UploadRoute.ThrownText | src/app/api/upload/route.js:68 | A thrown value's non-empty message is its parseError, and the text is empty only when both the message and the rendering are. `UploadRoute.PdfIsParsed` shows this text is what a throw in the parser reports. |
| UploadRoute.PublicPathShape | src/app/api/upload/route.js:72 | The public path splits into "", "uploads" and one escaped segment, so it has exactly one `/` after "/uploads". Decoding that segment gives the stored name back. |
| UploadRoute.PublicPath | src/app/api/upload/route.js:72 | The public path starts with "/uploads/", and no `/` follows that prefix. `UploadRoute.PublicPathShape` shows that decoding the rest gives the stored name back. |
| UploadRoute.TraversalExample | src/app/api/upload/route.js:23-82 | Ten non-PDF octets sent as "../../etc/passwd" are stored as "passwd.pdf". The answer is 200 with path "/uploads/passwd.pdf", empty text and the diagnostic. |
| PosixPath.Basename | src/app/api/upload/route.js:24 | The basename holds no `/`, and a slash-free name is its own basename. |
| PosixPath.BasenameEmpty | src/app/api/upload/route.js:24 | The basename is empty exactly when the path is all separators. |
| PosixPath.BasenameIsLastSegment | src/app/api/upload/route.js:24 | The basename is the last non-empty piece of the path split at `/`. |
| PosixPath.BasenameAfterSlash | src/app/api/upload/route.js:24 | The basename of "x/y", with y a non-empty segment, is y. |
| PosixPath.BasenameIdempotent | src/app/api/upload/route.js:24 | Taking the basename twice changes nothing. |
| PosixPath.Extname | src/app/api/upload/route.js:27 | An extension is empty or starts with a dot, and never holds a separator. |
| PosixPath.ExtnameShape | src/app/api/upload/route.js:27 | A name has an extension exactly when it is not ".." and has a dot after its first character. The extension is then the name's tail from the last dot: shorter than the name, with no further dot. |
| PosixPath.LowerAsciiFixed | src/app/api/upload/route.js:27 | Lower-casing leaves a string unchanged exactly when it has no upper-case ASCII letter. |
| PosixPath.LowerAscii | src/app/api/upload/route.js:27 | Lower-casing keeps the length, maps each ASCII capital to its small letter and leaves every other character alone. |
| PosixPath.LowerAsciiNoUpper | src/app/api/upload/route.js:27 | A lower-cased string holds no upper-case ASCII letter. |
| PosixPath.LowerExtname | src/app/api/upload/route.js:27 | Lower-casing an extension keeps its leading dot and adds no separator. |
| PosixPath.JoinSplit | src/app/api/upload/route.js:36 | Splitting a path at `/` and joining the pieces again gives the path back. |
| PosixPath.SplitAround | src/app/api/upload/route.js:36 | Splitting "a/b" gives the pieces of a followed by the pieces of b. |
| PosixPath.WalkConcat | backend/routes.py:25 | Resolving a concatenation of pieces is resolving the first part, then the second. |
| PosixPath.PlainNameStaysInside | src/app/api/upload/route.js:36-37 | A single ordinary segment resolves to the entry of that name directly inside the directory. |
| PosixPath.PyJoin | backend/routes.py:25 | An absolute second argument replaces the first; otherwise the result ends with the second argument. |
| UriComponent.Encode | src/app/page.js:30 | The encoding uses only unreserved characters and `%`, leaves an all-unreserved string as it is, and is never shorter than its input. |
| UriComponent.EncodeHasNoSlash | src/app/api/upload/route.js:72 | An encoding never holds `/`. |
| UriComponent.EncodeWithoutEscapes | src/app/api/upload/route.js:72 | An encoding without `%` is the string itself. |
| UriComponent.Decode | src/app/api/upload/route.js:24 | A string without `%` decodes to itself, and a decoding is never longer than its input. |
| UriComponent.DecodeEncode | src/app/api/upload/route.js:24 | `decodeURIComponent` undoes `encodeURIComponent` for every string. |
| UriComponent.StrayPercentRejected | src/app/api/upload/route.js:24 | After a prefix without `%`, a `%` not followed by two hex digits makes the whole decoding fail with a URIError. |
| UriComponent.OverlongSlashRejected | src/app/api/upload/route.js:24 | The overlong form "%C0%AF" of `/` is rejected. |
| UriComponent.EscapedSlashDecodes | src/app/api/upload/route.js:24 | The escape "%2F" decodes to a real separator `/`, so an escaped path reaches the basename step as a path. |
| Utf8.DecodeOctets | src/app/api/upload/route.js:24 | A framed octet group decodes only when it is the encoding of the character it yields. |
| Utf8.DecodeEncode | src/app/api/upload/route.js:24 | Every character's UTF-8 encoding decodes back to that character. |
| Utf8.DecodeLossy | src/app/api/upload/route.js:50 | Lossy decoding never yields more characters than there are octets. |
| Utf8.LossyAsciiPrefix | src/app/api/upload/route.js:50-51 | An ASCII text at the front of a lossy decoding was exactly the ASCII octets at the front of the input. |
| Utf8.LossyDecodesEncoding | backend/routes.py:22 | Lossy decoding of a well-formed encoding gives the text back. |
| PercentEncoding.EscapedOctetOfEscapeAll | src/app/api/upload/route.js:24 | Each triplet of an escaped octet sequence reads back as its octet, whatever surrounds it. |
| PyUnquote.UnquoteToBytesOfEncode | backend/routes.py:22 | Unquoting a `encodeURIComponent` result to octets gives the UTF-8 encoding of the original. |
| PyUnquote.Unquote | backend/routes.py:22 | `unquote` never lengthens its input and leaves a string without `%` as it is. `PyUnquote.UnquoteOfEncode` shows it inverts the client's escaping, and `PyUnquote.StrayPercentKept` that it keeps a stray `%`. |
| PyUnquote.UnquoteOfEncode | backend/routes.py:22 | `unquote` recovers every name the client escapes. |
| PyUnquote.StrayPercentKept | backend/routes.py:22 | `unquote` keeps a stray `%`, while `decodeURIComponent` rejects it. |
| FlaskUpload.Upload | backend/routes.py:11-32 | A missing or empty header gives the rejection "Filename header missing", checked first. Otherwise an empty body gives the rejection "No file data received"; both are answered with status 400. Otherwise the handler goes on with the save path and the bytes, and decoding never fails. |
| FlaskUpload.SavePath | backend/routes.py:19-25 | The save path is the decoded name when that is absolute, and "uploads/" + decoded name otherwise. |
| FlaskUpload.FolderJoin | backend/routes.py:25 | Joining a plain folder in front of a relative name is resolving the name inside the folder. |
| FlaskUpload.SavePathResolves | backend/routes.py:19-25 | The save path denotes what the decoded name denotes inside `cwd/uploads`, or the absolute decoded name itself. |
| FlaskUpload.PlainNameResolvesInside | backend/routes.py:22-25 | For a decoded name that is one ordinary segment, the save path resolves to an entry directly inside the folder. |
| FlaskUpload.TraversalEscapes | backend/routes.py:22-25 | For a decoded name starting "../../", the save path climbs out of the folder and out of `cwd`: the rest is resolved from `cwd`'s parent, or from the root when `cwd` is the root. |
| FlaskUpload.TraversalHeaderEscapes | backend/routes.py:22-25 | For a header decoding to "../../etc/passwd", the save path resolves to `etc/passwd` under `cwd`'s parent (under the root when `cwd` is the root), not under `cwd/uploads`. |
| FlaskUpload.AbsoluteNameReplacesFolder | backend/routes.py:25 | An absolute decoded name is the save path, and the folder plays no part. |
| GraphBox.Normalize | src/components/graphBox.js:10-11 | The normalized rating lies in 0..5. It equals a rating already in range, is 0 for a negative rating and 5 for one above 5. |
| GraphBox.Bars | src/components/graphBox.js:28-31 | Exactly five bars are drawn, and bar i is filled exactly when i is below the normalized rating. |
| GraphBox.FilledFrom | src/components/graphBox.js:28-31 | From index i on, the filled count is the normalized rating minus i, or 0. |
| GraphBox.FilledIsNormalized | src/components/graphBox.js:28-31 | The number of filled bars equals the normalized rating. |
| GraphBox.NormalizeIdempotent | src/components/graphBox.js:11 | Normalizing twice changes nothing. |
| GraphBox.BarsMonotone | src/components/graphBox.js:11-31 | A higher rating never fills fewer bars: each bar filled for the lower rating is filled for the higher. |
| GraphBox.NoRatingFillsNothing | src/components/graphBox.js:9-11 | With no rating prop the rating is 0 and all five bars are empty. This is the case for the dashboard's line, metric, pie and bar boxes. |
| GraphBox.ExtremeRatings | src/components/graphBox.js:11 | A rating of 5 or more fills every bar; a rating of 0 or less fills none. |
| UploadForm.HandleSubmit | src/app/page.js:12-45 | The setters run in order. Each submit first clears message and link. A request is sent exactly when a file of type `application/pdf` is chosen. With no file, the final message is "Please choose a PDF file."; with a non-PDF file, "Only PDF files are accepted." In both cases the link is "" and `uploading` is untouched. A sent request carries the escaped name, content type `application/pdf` and the file's bytes; `uploading` is true while it is pending and false at the end. |
| UploadForm.AfterSend | src/app/page.js:26-44 | Whatever `fetch` does, `uploading` ends false. |
| UploadForm.ContentType | src/app/page.js:31 | The content type is the file's type when it has one, and never empty. |
| UploadForm.RequestFor | src/app/page.js:27-34 | The `x-filename` header decodes back to the file's name, the content type is never empty, and the body is the file's bytes. |
| UploadForm.SentOutcome | src/app/page.js:35-41 | After a request the message is "Upload successful." exactly when the response was ok with a readable body; the link is then `data.path` or "". Otherwise the message is the failure text and the link stays "". |
| UploadForm.LinkOnlyOnSuccess | src/app/page.js:35-41 | A non-empty link implies a sent request, a successful response and the success message. |
| UploadForm.FinalMessageIsOneOfFour | src/app/page.js:14-41 | The final message is always one of the four the handler sets. |
| UploadForm.NoFileIgnoresFetch | src/app/page.js:16-19 | Without a file nothing is sent and the outcome of `fetch` is irrelevant. |
| EndToEnd.FormHeaderDecodes | src/app/page.js:30 | The header the form sends always decodes on the Next.js route, giving `StoredName` of the file's name, or the default name for an empty file name. |
| EndToEnd.FlaskSeesFileName | backend/routes.py:22-25 | The Flask route recovers the file's name from the same header, and its save path is "uploads" joined with that name. |
| EndToEnd.StrayPercentContrast | backend/routes.py:22 | On the header "%" the Next.js route answers 500 and writes nothing, while the Flask route goes on with the save path "uploads/%". |

## Left out

- File-system I/O is reduced to the uploads map. `mkdir` and `writeFile` failures are one `writeError` input. A write that fails half-way is modelled as writing nothing.
- The `writeError` input also stands for failures the stored name itself causes. Node refuses any path holding U+0000, so the header "%00" always ends in a 500; with `writeError` absent the model answers 200 and stores "\u0000.pdf". The same holds for a name longer than the file system allows and for a name that is an existing directory: the model does not tie these to the name.
- `process.cwd()` and `path.join(uploadsDir, safeFilename)` are modelled as resolving the stored name inside a directory given as a list of names (`Resolve`). The string that `path.join` normalises to is not computed.
- `req.arrayBuffer()` is modelled by the body bytes plus an optional `readError`.
- `Date.now()` is a natural-number parameter, written in decimal as `String()` writes integers below 10^21.
- `pdf-parse` is an opaque outcome: a text (possibly missing) or a thrown message with its rendering. A non-string `parsed.text` is not modelled.
- Logging (`console.warn`, `console.error`) has no effect on the outcome and is left out.
- `toLowerCase` is modelled on ASCII letters only. Other characters with a lower-case mapping are left unchanged.
- JavaScript strings are UTF-16, but Dafny characters are Unicode scalar values. Lone surrogates, on which `encodeURIComponent` throws, cannot be expressed.
- Header values are taken as given. The trimming of surrounding whitespace, the byte-string restrictions of HTTP and the case-insensitive lookup are not modelled.
- `Math.round` on non-integer ratings (floating point) is left out. Ratings are integers.
- The JSX of every page is left out, and so are the navbar, the static dashboard data, the about page and the placeholder chat page: they hold no behaviour to state.
- React renders and state batching are not modelled. A submission is the sequence of states produced by the setter calls.
- The fetch layer is reduced to three outcomes: a thrown network error, a response with its `ok` flag, and a JSON body that is unparsable, `null`, or a value with an optional string `path`. `res.statusText` only feeds the logged error, and a non-string `data.path` is not modelled.
- `backend/app.py` (Flask and CORS set-up, `makedirs`) is not part of this model, and neither is the part of `backend/routes.py` after line 32 (the write and its answer). `request.data` is taken to be the raw body.
- `FlaskUpload.Upload`: the outer `try` in routes.py has its `except` after line 32. Nothing before line 32 can raise in the model, so that branch is not modelled.
- Windows path semantics are left out; all paths are POSIX.

=== FILE: common.dfy ===
/** Small shared vocabulary: octets, optional values, results and the string
    predicates the JavaScript and Python sources rely on. */
module Common {

  /** One octet of a request body, a Node `Buffer` or a Python `bytes`. */
  newtype byte = b: int | 0 <= b < 256

  datatype Option<+T> = None | Some(value: T)

  datatype Result<+T, +E> = Ok(value: T) | Err(error: E)

  /** JavaScript `String.prototype.endsWith` with one argument. */
  predicate EndsWith(s: string, suffix: string)
  {
    |suffix| <= |s| && s[|s| - |suffix|..] == suffix
  }

  lemma ConcatAssoc<T>(a: seq<T>, b: seq<T>, c: seq<T>)
    ensures a + (b + c) == a + b + c
  {
  }

  /** Dropping the last element of a concatenation with a non-empty right
      part drops it from the right part. */
  lemma DropLastOfConcat<T>(xs: seq<T>, ys: seq<T>)
    requires ys != []
    ensures (xs + ys)[..|xs + ys| - 1] == xs + ys[..|ys| - 1]
  {
  }

  /** A string ends with only one suffix of each length. */
  lemma SuffixOfLength(s: string, a: string, b: string)
    requires EndsWith(s, a) && |a| == |b| && a != b
    ensures !EndsWith(s, b)
  {
  }

  /** JavaScript `String.prototype.startsWith` / Python `str.startswith`. */
  predicate StartsWith(s: string, prefix: string)
  {
    |prefix| <= |s| && s[..|prefix|] == prefix
  }

  predicate IsAsciiChar(c: char)
  {
    c as int < 0x80
  }

  predicate IsAscii(s: string)
  {
    forall i :: 0 <= i < |s| ==> IsAsciiChar(s[i])
  }

  /** The octets of an ASCII string, one per character. */
  function AsciiBytes(s: string): (bs: seq<byte>)
    requires IsAscii(s)
    ensures |bs| == |s|
    ensures forall i :: 0 <= i < |s| ==> bs[i] as int == s[i] as int
  {
    if s == [] then [] else [s[0] as int as byte] + AsciiBytes(s[1..])
  }

  /** Decimal digits of a natural number, most significant first, as
      JavaScript's `String(n)` writes a non-negative integer below 10^21. */
  function Decimal(n: nat): (s: string)
    ensures |s| >= 1
    ensures forall i :: 0 <= i < |s| ==> '0' <= s[i] <= '9'
    ensures n >= 10 ==> s[0] != '0'
    decreases n
  {
    if n < 10 then [DigitChar(n)] else Decimal(n / 10) + [DigitChar(n % 10)]
  }

  function DigitChar(d: nat): (c: char)
    requires d < 10
    ensures '0' <= c <= '9' && c as int - '0' as int == d
  {
    (d + '0' as int) as char
  }

  /** The value a string of decimal digits denotes. */
  function DigitsValue(s: string): nat
    requires forall i :: 0 <= i < |s| ==> '0' <= s[i] <= '9'
  {
    if s == [] then 0 else DigitsValue(s[..|s| - 1]) * 10 + (s[|s| - 1] as int - '0' as int)
  }

  /** `Decimal` writes exactly the number it is given. */
  lemma {:induction false} DecimalValue(n: nat)
    ensures DigitsValue(Decimal(n)) == n
    decreases n
  {
    if n >= 10 {
      var s := Decimal(n);
      assert s[..|s| - 1] == Decimal(n / 10);
      DecimalValue(n / 10);
    }
  }
}

=== FILE: end_to_end.dfy ===
/** The form and the two upload routes together: what the server makes of
    the `x-filename` header the form sends. */
module EndToEnd {
  import opened Common
  import UriComponent
  import PyUnquote
  import UploadForm
  import UploadRoute
  import FlaskUpload
  import opened PosixPath

  /** The header the form sends always decodes on the Next.js route, so its
      500 branch for a malformed name is never taken for this client: a
      named file is stored under `StoredName` of its own name, a file with
      an empty name under the made-up "upload-<now>.pdf". */
  lemma FormHeaderDecodes(file: UploadForm.SelectedFile, now: nat)
    ensures var header := UploadForm.RequestFor(file).filenameHeader;
            && (file.name != "" ==> UploadRoute.TargetName(Some(header), now) == Some(UploadRoute.StoredName(file.name)))
            && (file.name == "" ==> UploadRoute.TargetName(Some(header), now) == Some(UploadRoute.DefaultName(now)))
  {
    var header := UriComponent.Encode(file.name);
    UriComponent.DecodeEncode(file.name);
    if file.name == "" {
      UploadRoute.DefaultNameUsed(Some(header), now);
    }
  }

  /** The Flask route recovers the file's own name from the same header, so
      its save path is "uploads" joined with that name, separators and ".."
      pieces included. */
  lemma FlaskSeesFileName(file: UploadForm.SelectedFile)
    requires file.name != "" && file.bytes != []
    ensures var req := FlaskUpload.Request(Some(UploadForm.RequestFor(file).filenameHeader), file.bytes);
            FlaskUpload.Upload(req) == FlaskUpload.Continues(PyJoin(FlaskUpload.UploadFolder, file.name), file.bytes)
  {
    PyUnquote.UnquoteOfEncode(file.name);
  }

  /** The two routes part ways on a header with a stray `%`: Next.js answers
      500 and writes nothing, Flask keeps the `%` and goes on with the
      save path "uploads/%". */
  lemma StrayPercentContrast(env: UploadRoute.Environment, uploads: UploadRoute.Uploads, body: seq<byte>)
    requires env.readError.None? && body != []
    ensures var o := UploadRoute.Post(UploadRoute.Request(Some("%"), body), env, uploads);
            o.response.Status() == 500 && o.uploads == uploads
    ensures FlaskUpload.Upload(FlaskUpload.Request(Some("%"), body)) == FlaskUpload.Continues("uploads/%", body)
  {
    PyUnquote.StrayPercentKept();
    assert !StartsWith("%", "/");
    assert FlaskUpload.UploadFolder + "/" + "%" == "uploads/%";
  }
}

=== FILE: flask_upload.dfy ===
/** The Flask route `POST /upload`, up to the point where the source shown
    ends: it rejects a request without a usable `x-filename` header, decodes
    the header with `unquote`, joins it onto "uploads" with `os.path.join`,
    and rejects an empty body. Unlike the Next.js route it keeps no basename:
    the decoded header is used as a path. */
module FlaskUpload {
  import opened Common
  import opened PosixPath
  import PyUnquote

  datatype Request = Request(filenameHeader: Option<string>, data: seq<byte>)

  /** A rejection, which the handler answers with status 400 and
      `{"error": ...}`, or the save path and the bytes with which the
      handler goes on. */
  datatype Outcome =
    | BadRequest(error: string)
    | Continues(savePath: string, fileData: seq<byte>)

  const UploadFolder: string := "uploads"
  const HeaderMissing: string := "Filename header missing"
  const NoData: string := "No file data received"

  /** `os.path.join(UPLOAD_FOLDER, urllib.parse.unquote(encoded_filename))`. */
  function SavePath(header: string): (p: string)
    ensures StartsWith(PyUnquote.Unquote(header), "/") ==> p == PyUnquote.Unquote(header)
    ensures !StartsWith(PyUnquote.Unquote(header), "/") ==> p == UploadFolder + "/" + PyUnquote.Unquote(header)
  {
    PyJoin(UploadFolder, PyUnquote.Unquote(header))
  }

  /** `upload()` as far as the empty-body check. The header check comes
      first; decoding and joining cannot fail. */
  function Upload(req: Request): (o: Outcome)
    ensures (req.filenameHeader.None? || req.filenameHeader.value == "") <==> o == BadRequest(HeaderMissing)
    ensures o == BadRequest(NoData) <==>
              req.filenameHeader.Some? && req.filenameHeader.value != "" && req.data == []
    ensures o.Continues? <==> req.filenameHeader.Some? && req.filenameHeader.value != "" && req.data != []
    ensures o.Continues? ==> o.savePath == SavePath(req.filenameHeader.value) && o.fileData == req.data
  {
    if req.filenameHeader.None? || req.filenameHeader.value == "" then BadRequest(HeaderMissing)
    else
      var savePath := SavePath(req.filenameHeader.value);
      if req.data == [] then BadRequest(NoData) else Continues(savePath, req.data)
  }

  // ---- Where the file would go ---------------------------------------------

  /** Joining a plain folder name in front of a relative name is resolving
      that name inside the folder. */
  lemma FolderJoin(cwd: seq<string>, folder: string, name: string)
    requires '/' !in folder && folder != "" && folder != "." && folder != ".."
    requires !StartsWith(name, "/")
    ensures Resolve(cwd, folder + "/" + name) == Resolve(cwd + [folder], name)
  {
    var p := folder + "/" + name;
    assert p[0] == folder[0] && folder[0] in folder;
    SplitAround(folder, name);
    SplitSlashFree(folder);
    WalkConcat(cwd, [folder], Split(name));
    assert Walk(cwd, [folder]) == Step(Walk(cwd, []), folder);
  }

  lemma FolderName()
    ensures '/' !in UploadFolder && UploadFolder != "" && UploadFolder != "." && UploadFolder != ".."
  {
  }

  /** The save path, opened from the working directory `cwd`, denotes what
      the decoded name denotes when opened from `cwd/uploads`, unless the
      decoded name is absolute: then it denotes that absolute path and the
      folder plays no part. */
  lemma SavePathResolves(cwd: seq<string>, header: string)
    ensures var name := PyUnquote.Unquote(header);
            && (!StartsWith(name, "/") ==> Resolve(cwd, SavePath(header)) == Resolve(cwd + [UploadFolder], name))
            && (StartsWith(name, "/") ==> Resolve(cwd, SavePath(header)) == Resolve([], name))
  {
    var name := PyUnquote.Unquote(header);
    if !StartsWith(name, "/") {
      FolderName();
      FolderJoin(cwd, UploadFolder, name);
    }
  }

  /** For a decoded name that is one ordinary segment, the save path
      resolves to an entry directly inside the folder. */
  lemma PlainNameResolvesInside(cwd: seq<string>, header: string)
    requires var name := PyUnquote.Unquote(header);
             '/' !in name && name != "" && name != "." && name != ".."
    ensures Resolve(cwd, SavePath(header)) == cwd + [UploadFolder, PyUnquote.Unquote(header)]
  {
    var name := PyUnquote.Unquote(header);
    assert !StartsWith(name, "/") by {
      assert name[0] in name;
    }
    SavePathResolves(cwd, header);
    PlainNameStaysInside(cwd + [UploadFolder], name);
  }

  /** Two leading ".." pieces climb out of the folder and out of `cwd`:
      what follows them is resolved from `cwd`'s parent (the root itself
      when `cwd` is the root), not inside `cwd/uploads`. */
  lemma TraversalEscapes(cwd: seq<string>, rest: string)
    ensures Resolve(cwd + [UploadFolder], "../../" + rest) == Walk(Step(cwd, ".."), Split(rest))
  {
    var d := cwd + [UploadFolder];
    assert Walk(d, [".."]) == cwd by {
      assert Walk(d, [".."]) == Step(Walk(d, []), "..");
    }
    assert Walk(cwd, [".."]) == Step(cwd, "..") by {
      assert Walk(cwd, [".."]) == Step(Walk(cwd, []), "..");
    }
    ClimbTwiceSplit(rest);
    WalkConcat(d, [".."], [".."] + Split(rest));
    WalkConcat(cwd, [".."], Split(rest));
  }

  /** "../../" + rest splits into two ".." pieces followed by the pieces of rest. */
  lemma NestedClimbSplit(rest: string)
    ensures Split(".." + "/" + (".." + "/" + rest)) == [".."] + ([".."] + Split(rest))
  {
    SplitAround("..", ".." + "/" + rest);
    SplitAround("..", rest);
    SplitSlashFree("..");
  }

  /** "../../" + rest is relative and splits into two ".." pieces followed
      by the pieces of rest. */
  lemma ClimbTwiceSplit(rest: string)
    ensures "../../" + rest == ".." + "/" + (".." + "/" + rest)
    ensures !StartsWith("../../" + rest, "/")
    ensures Split("../../" + rest) == [".."] + ([".."] + Split(rest))
  {
    NestedClimbSplit(rest);
    assert ("../../" + rest)[0] == '.';
    assert "../../" == ".." + "/" + ".." + "/";
    ConcatAssoc("..", "/", ".." + "/" + rest);
    ConcatAssoc("../", "..", "/" + rest);
    ConcatAssoc("../..", "/", rest);
  }

  /** The client's escaping of "../../etc/passwd" is undone by `unquote`, so
      the save path leaves the folder: from `cwd` it denotes `etc/passwd`
      in `cwd`'s parent, or in the root when `cwd` is the root. */
  lemma TraversalHeaderEscapes(cwd: seq<string>, header: string)
    requires PyUnquote.Unquote(header) == "../../etc/passwd"
    ensures Resolve(cwd, SavePath(header)) == Step(cwd, "..") + ["etc", "passwd"]
    ensures !(cwd + [UploadFolder] <= Resolve(cwd, SavePath(header)))
  {
    var up := Step(cwd, "..");
    EtcPasswdOrdinary();
    SavePathResolves(cwd, header);
    TraversalEscapes(cwd, "etc/passwd");
    WalkDown(up, "etc", "passwd");
    if cwd == [] {
      assert (up + ["etc", "passwd"])[0] == "etc";
    } else {
      assert (up + ["etc", "passwd"])[|cwd|] == "passwd";
    }
  }

  /** Walking two ordinary pieces goes down two levels. */
  lemma WalkDown(dir: seq<string>, a: string, b: string)
    requires a !in {"", ".", ".."} && b !in {"", ".", ".."}
    ensures Walk(dir, [a, b]) == dir + [a, b]
  {
    assert Walk(dir, [a, b]) == Step(Walk(dir, [a]), b);
    assert Walk(dir, [a]) == Step(Walk(dir, []), a);
  }

  /** Two slash-free names around one separator are two pieces. */
  lemma TwoPieces(a: string, b: string)
    requires '/' !in a && '/' !in b
    ensures Split(a + "/" + b) == [a, b]
  {
    SplitAround(a, b);
    SplitSlashFree(a);
    SplitSlashFree(b);
  }

  /** "etc/passwd" splits into two ordinary pieces, and "../../etc/passwd" is relative. */
  lemma EtcPasswdOrdinary()
    ensures Split("etc/passwd") == ["etc", "passwd"]
    ensures "../../" + "etc/passwd" == "../../etc/passwd" && !StartsWith("../../etc/passwd", "/")
    ensures "etc" !in {"", ".", ".."} && "passwd" !in {"", ".", ".."}
  {
    EtcPasswdSplit();
    assert "../../etc/passwd"[0] == '.';
  }

  lemma EtcPasswdSplit()
    ensures Split("etc/passwd") == ["etc", "passwd"]
  {
    assert "etc/passwd" == "etc" + "/" + "passwd";
    TwoPieces("etc", "passwd");
  }

  /** An absolute decoded name replaces the folder altogether. */
  lemma AbsoluteNameReplacesFolder(header: string)
    requires StartsWith(PyUnquote.Unquote(header), "/")
    ensures SavePath(header) == PyUnquote.Unquote(header)
    ensures forall cwd :: Resolve(cwd, SavePath(header)) == Resolve([], PyUnquote.Unquote(header))
  {
  }
}

=== FILE: graph_box.dfy ===
/** The dashboard's `GraphBox` condition indicator: the `rating` prop
    (0 when it is not passed) is rounded and clamped into 0..5, and five bars
    are drawn, the first `normalized` of them filled. Ratings are integers
    here, so `Math.round` leaves them as they are. */
module GraphBox {
  import opened Common

  const BarCount: nat := 5

  /** `Math.max(0, Math.min(5, Math.round(rating)))` on an integer rating. */
  function Normalize(rating: int): (n: int)
    ensures 0 <= n <= BarCount
    ensures 0 <= rating <= BarCount ==> n == rating
    ensures rating < 0 ==> n == 0
    ensures rating > BarCount ==> n == BarCount
  {
    if rating < 0 then 0 else if rating > BarCount then BarCount else rating
  }

  /** The destructuring default `rating = 0`: an absent prop reads as 0. */
  function RatingProp(rating: Option<int>): int
  {
    if rating.Some? then rating.value else 0
  }

  /** The bars from index `i` on, each filled when `i < normalized`, as
      `Array.from({ length: 5 }).map((_, i) => i < normalized)` draws them. */
  function BarsFrom(normalized: int, i: nat): (bars: seq<bool>)
    requires i <= BarCount
    ensures |bars| == BarCount - i
    ensures forall k :: 0 <= k < |bars| ==> (bars[k] <==> i + k < normalized)
    decreases BarCount - i
  {
    if i == BarCount then [] else [i < normalized] + BarsFrom(normalized, i + 1)
  }

  /** The five bars the component renders for its `rating` prop: exactly
      five, and bar `i` is filled exactly when `i` is below the normalized
      rating. */
  function Bars(rating: Option<int>): (bars: seq<bool>)
    ensures |bars| == BarCount
    ensures forall i :: 0 <= i < BarCount ==> (bars[i] <==> i < Normalize(RatingProp(rating)))
  {
    BarsFrom(Normalize(RatingProp(rating)), 0)
  }

  /** The number of filled bars. */
  function Filled(bars: seq<bool>): nat
  {
    if bars == [] then 0 else (if bars[0] then 1 else 0) + Filled(bars[1..])
  }

  // ---- Properties ----------------------------------------------------------

  /** From index `i` on, `normalized - i` bars are filled (none once `i`
      reaches the normalized rating). */
  lemma {:induction false} FilledFrom(normalized: int, i: nat)
    requires 0 <= normalized <= BarCount && i <= BarCount
    ensures Filled(BarsFrom(normalized, i)) == if i < normalized then normalized - i else 0
    decreases BarCount - i
  {
    if i < BarCount {
      var bars := BarsFrom(normalized, i);
      assert bars[1..] == BarsFrom(normalized, i + 1);
      FilledFrom(normalized, i + 1);
    }
  }

  /** The number of filled bars is the normalized rating. */
  lemma FilledIsNormalized(rating: Option<int>)
    ensures Filled(Bars(rating)) == Normalize(RatingProp(rating))
  {
    FilledFrom(Normalize(RatingProp(rating)), 0);
  }

  /** Normalizing twice changes nothing. */
  lemma NormalizeIdempotent(rating: int)
    ensures Normalize(Normalize(rating)) == Normalize(rating)
  {
  }

  /** A higher rating never fills fewer bars: every bar filled for `a` is
      filled for `b >= a`, and the count does not drop. */
  lemma BarsMonotone(a: int, b: int)
    requires a <= b
    ensures Normalize(a) <= Normalize(b)
    ensures forall i :: 0 <= i < BarCount && Bars(Some(a))[i] ==> Bars(Some(b))[i]
    ensures Filled(Bars(Some(a))) <= Filled(Bars(Some(b)))
  {
    FilledIsNormalized(Some(a));
    FilledIsNormalized(Some(b));
  }

  /** A box given no `rating`, like the dashboard's line, metric, pie and bar
      boxes, draws five empty bars. */
  lemma NoRatingFillsNothing()
    ensures Bars(None) == [false, false, false, false, false]
    ensures Filled(Bars(None)) == 0
  {
    FilledIsNormalized(None);
  }

  /** A rating of 5 or more fills every bar; a rating of 0 or less none. */
  lemma ExtremeRatings(rating: int)
    ensures rating >= BarCount ==> Filled(Bars(Some(rating))) == BarCount
    ensures rating <= 0 ==> Filled(Bars(Some(rating))) == 0
  {
    FilledIsNormalized(Some(rating));
  }
}

=== FILE: percent_encoding.dfy ===
/** Percent-encoding of octets as section 2.1 of RFC 3986 defines it: an
    octet is written "%" followed by two hexadecimal digits. Producers write
    upper-case digits; consumers accept either case. */
module PercentEncoding {
  import opened Common

  function HexValue(c: char): (r: Option<int>)
    ensures r.Some? ==> 0 <= r.value < 16
    ensures r.Some? <==> '0' <= c <= '9' || 'A' <= c <= 'F' || 'a' <= c <= 'f'
  {
    if '0' <= c <= '9' then Some(c as int - '0' as int)
    else if 'A' <= c <= 'F' then Some(c as int - 'A' as int + 10)
    else if 'a' <= c <= 'f' then Some(c as int - 'a' as int + 10)
    else None
  }

  predicate IsHexDigit(c: char)
  {
    HexValue(c).Some?
  }

  /** The upper-case hexadecimal digit for a value below 16. */
  function HexDigit(d: int): (c: char)
    requires 0 <= d < 16
    ensures HexValue(c) == Some(d)
    ensures '0' <= c <= '9' || 'A' <= c <= 'F'
  {
    if d < 10 then (d + '0' as int) as char else (d - 10 + 'A' as int) as char
  }

  /** The triplet "%XY" for one octet. */
  function Escape(b: byte): (e: string)
    ensures |e| == 3 && e[0] == '%'
    ensures IsHexDigit(e[1]) && IsHexDigit(e[2])
    ensures HexValue(e[1]).value * 16 + HexValue(e[2]).value == b as int
  {
    ['%', HexDigit(b as int / 16), HexDigit(b as int % 16)]
  }

  /** The triplets of a sequence of octets, one after another. */
  function EscapeAll(bs: seq<byte>): (e: string)
    ensures |e| == 3 * |bs|
  {
    if bs == [] then "" else Escape(bs[0]) + EscapeAll(bs[1..])
  }

  /** The octet a "%XY" triplet at position `i` of `s` stands for, if one
      starts there. */
  function EscapedOctet(s: string, i: nat): (r: Option<byte>)
    ensures r.Some? <==> i + 3 <= |s| && s[i] == '%' && IsHexDigit(s[i + 1]) && IsHexDigit(s[i + 2])
    ensures r.Some? ==> r.value as int == HexValue(s[i + 1]).value * 16 + HexValue(s[i + 2]).value
  {
    if i + 3 <= |s| && s[i] == '%' && IsHexDigit(s[i + 1]) && IsHexDigit(s[i + 2]) then
      Some((HexValue(s[i + 1]).value * 16 + HexValue(s[i + 2]).value) as byte)
    else None
  }

  /** The `j`-th triplet of `EscapeAll(bs)` reads back as `bs[j]`, whatever
      precedes or follows it. */
  lemma {:induction false} EscapedOctetOfEscapeAll(pre: string, bs: seq<byte>, j: nat, post: string)
    requires j < |bs|
    ensures EscapedOctet(pre + EscapeAll(bs) + post, |pre| + 3 * j) == Some(bs[j])
    decreases j
  {
    var s := pre + EscapeAll(bs) + post;
    if j == 0 {
      var e := Escape(bs[0]);
      assert s[|pre|..|pre| + 3] == e;
      assert s[|pre|] == e[0] && s[|pre| + 1] == e[1] && s[|pre| + 2] == e[2];
    } else {
      assert s == (pre + Escape(bs[0])) + EscapeAll(bs[1..]) + post;
      EscapedOctetOfEscapeAll(pre + Escape(bs[0]), bs[1..], j - 1, post);
    }
  }
}

=== FILE: posix_path.dfy ===
/** The POSIX path operations the two upload routes use: Node's
    `path.basename` and `path.extname`, JavaScript's ASCII `toLowerCase`,
    Python's two-argument `posixpath.join`, and the way a POSIX file system
    resolves a path string against a directory, which is what decides where a
    written file ends up. */
module PosixPath {
  import opened Common

  // ---- Segments ------------------------------------------------------------

  /** The pieces between the `/` separators of a path, as JavaScript's
      `p.split("/")`: empty pieces stand for a leading, trailing or doubled
      separator. */
  function Split(p: string): (parts: seq<string>)
    ensures |parts| >= 1
    decreases |p|
  {
    if p == [] then [""]
    else
      var init := Split(p[..|p| - 1]);
      if p[|p| - 1] == '/' then init + [""]
      else init[..|init| - 1] + [init[|init| - 1] + [p[|p| - 1]]]
  }

  /** The inverse of `Split`: the pieces put back together with `/`. */
  function JoinSegments(parts: seq<string>): string
    requires |parts| >= 1
  {
    if |parts| == 1 then parts[0]
    else JoinSegments(parts[..|parts| - 1]) + "/" + parts[|parts| - 1]
  }

  lemma {:induction false} JoinSplit(p: string)
    ensures JoinSegments(Split(p)) == p
    decreases |p|
  {
    if p != [] {
      var q := p[..|p| - 1];
      var init := Split(q);
      JoinSplit(q);
      assert p == q + [p[|p| - 1]];
      if p[|p| - 1] != '/' {
        var parts := Split(p);
        assert parts[..|parts| - 1] == init[..|init| - 1];
        if |init| > 1 {
          assert JoinSegments(init) == JoinSegments(init[..|init| - 1]) + "/" + init[|init| - 1];
        }
      }
    }
  }

  /** A string without `/` is a single piece. */
  lemma {:induction false} SplitSlashFree(p: string)
    requires '/' !in p
    ensures Split(p) == [p]
    decreases |p|
  {
    if p != [] {
      SplitSlashFree(p[..|p| - 1]);
      assert p == p[..|p| - 1] + [p[|p| - 1]];
    }
  }

  /** How `Split` grows by one character. */
  lemma SplitSnoc(q: string, c: char)
    ensures c == '/' ==> Split(q + [c]) == Split(q) + [""]
    ensures c != '/' ==> Split(q + [c]) == Split(q)[..|Split(q)| - 1] + [Split(q)[|Split(q)| - 1] + [c]]
  {
    assert (q + [c])[..|q + [c]| - 1] == q;
  }

  /** A separator between two strings splits them apart. */
  lemma {:induction false} SplitAround(a: string, b: string)
    ensures Split(a + "/" + b) == Split(a) + Split(b)
    decreases |b|
  {
    if b == [] {
      assert a + "/" + b == a + ['/'];
      SplitSnoc(a, '/');
    } else {
      var b', c := b[..|b| - 1], b[|b| - 1];
      var p' := a + "/" + b';
      SplitAround(a, b');
      assert b == b' + [c];
      ConcatAssoc(a + "/", b', [c]);
      SplitSnoc(p', c);
      SplitSnoc(b', c);
      var xs, ys := Split(a), Split(b');
      if c == '/' {
        ConcatAssoc(xs, ys, [""]);
      } else {
        DropLastOfConcat(xs, ys);
        assert (xs + ys)[|xs + ys| - 1] == ys[|ys| - 1];
        ConcatAssoc(xs, ys[..|ys| - 1], [ys[|ys| - 1] + [c]]);
      }
    }
  }

  // ---- basename ------------------------------------------------------------

  function StripTrailingSlashes(p: string): (r: string)
    ensures |r| <= |p| && r == p[..|r|]
    ensures r == [] || r[|r| - 1] != '/'
    ensures forall i :: |r| <= i < |p| ==> p[i] == '/'
    decreases |p|
  {
    if p != [] && p[|p| - 1] == '/' then StripTrailingSlashes(p[..|p| - 1]) else p
  }

  /** What follows the last `/` of `p` (all of `p` when it has none). */
  function AfterLastSlash(p: string): (r: string)
    ensures '/' !in r
    ensures |r| <= |p| && r == p[|p| - |r|..]
    ensures |r| < |p| ==> p[|p| - |r| - 1] == '/'
    decreases |p|
  {
    if p == [] || p[|p| - 1] == '/' then []
    else AfterLastSlash(p[..|p| - 1]) + [p[|p| - 1]]
  }

  /** Node's `path.posix.basename(p)`: trailing separators are ignored and
      the segment after the last remaining separator is kept. */
  function Basename(p: string): (r: string)
    ensures '/' !in r
    ensures '/' !in p ==> r == p
  {
    AfterLastSlash(StripTrailingSlashes(p))
  }

  /** The basename is empty exactly for a path of separators only. */
  lemma BasenameEmpty(p: string)
    ensures Basename(p) == [] <==> forall i :: 0 <= i < |p| ==> p[i] == '/'
  {
    var q := StripTrailingSlashes(p);
    assert q != [] ==> AfterLastSlash(q) != [];
  }

  /** The basename of a path ending in an ordinary segment is that segment. */
  lemma BasenameAfterSlash(x: string, y: string)
    requires '/' !in y && y != ""
    ensures Basename(x + "/" + y) == y
  {
    var p := x + "/" + y;
    assert p[|p| - 1] == y[|y| - 1];
    assert StripTrailingSlashes(p) == p;
    AfterLastSlashOf(x, y);
  }

  /** The last non-empty piece of a split path, "" if there is none. */
  function LastNonEmpty(parts: seq<string>): string
  {
    if parts == [] then ""
    else if parts[|parts| - 1] != "" then parts[|parts| - 1]
    else LastNonEmpty(parts[..|parts| - 1])
  }

  lemma {:induction false} LastPieceAfterLastSlash(p: string)
    ensures Split(p)[|Split(p)| - 1] == AfterLastSlash(p)
    decreases |p|
  {
    if p != [] {
      LastPieceAfterLastSlash(p[..|p| - 1]);
    }
  }

  /** The segment after a final separator is what follows it. */
  lemma {:induction false} AfterLastSlashOf(x: string, y: string)
    requires '/' !in y
    ensures AfterLastSlash(x + "/" + y) == y
    decreases |y|
  {
    var p := x + "/" + y;
    if y == [] {
      assert p[|p| - 1] == '/';
    } else {
      var y' := y[..|y| - 1];
      assert p[..|p| - 1] == x + "/" + y';
      AfterLastSlashOf(x, y');
      assert y == y' + [y[|y| - 1]];
    }
  }

  /** `Basename` agrees with the reference reading "the last non-empty
      segment of the path". */
  lemma {:induction false} BasenameIsLastSegment(p: string)
    ensures Basename(p) == LastNonEmpty(Split(p))
    decreases |p|
  {
    if p == [] {
      assert Split(p) == [""];
      assert LastNonEmpty([""]) == LastNonEmpty([]);
    } else if p[|p| - 1] == '/' {
      var q := p[..|p| - 1];
      BasenameIsLastSegment(q);
      assert Split(p) == Split(q) + [""];
      assert (Split(q) + [""])[..|Split(q)|] == Split(q);
    } else {
      LastPieceAfterLastSlash(p);
    }
  }

  /** Taking the basename twice changes nothing. */
  lemma BasenameIdempotent(p: string)
    ensures Basename(Basename(p)) == Basename(p)
  {
  }

  // ---- extname -------------------------------------------------------------

  /** Index of the last occurrence of `c` in `s`, or -1. */
  function LastIndexOf(s: string, c: char): (r: int)
    ensures -1 <= r < |s|
    ensures r >= 0 ==> s[r] == c
    ensures forall i :: r < i < |s| ==> s[i] != c
    decreases |s|
  {
    if s == [] then -1
    else if s[|s| - 1] == c then |s| - 1
    else LastIndexOf(s[..|s| - 1], c)
  }

  /** The last occurrence of `c` is the one followed by a stretch without it. */
  lemma {:induction false} LastIndexOfBefore(x: string, c: char, y: string)
    requires c !in y
    ensures LastIndexOf(x + [c] + y, c) == |x|
    decreases |y|
  {
    var s := x + [c] + y;
    if y == [] {
      assert s[..|s| - 1] == x;
    } else {
      var y' := y[..|y| - 1];
      assert s[..|s| - 1] == x + [c] + y';
      LastIndexOfBefore(x, c, y');
    }
  }

  /** Node's `path.posix.extname(p)` for the last segment `name` of `p`: from
      the last dot to the end, except that a name without a dot, a name whose
      only dot is its first character (".bashrc") and the name ".." have no
      extension. `ExtnameShape` states which names have one. */
  function Extname(p: string): (e: string)
    ensures '/' !in e
    ensures e == [] || e[0] == '.'
  {
    var name := Basename(p);
    var dot := LastIndexOf(name, '.');
    if dot <= 0 || name == ".." then ""
    else
      assert forall i :: 0 <= i < |name[dot..]| ==> name[dot..][i] == name[dot + i];
      name[dot..]
  }

  /** A name has an extension exactly when it is not ".." and has a dot
      after its first character; the extension is then the name's tail from
      its last dot, shorter than the name. */
  lemma ExtnameShape(p: string)
    ensures var e := Extname(p); var name := Basename(p);
            && (e == [] <==> name == ".." || forall i :: 0 < i < |name| ==> name[i] != '.')
            && (e != [] ==> e[0] == '.' && '.' !in e[1..] && |e| < |name| && EndsWith(name, e))
  {
    var name := Basename(p);
    var dot := LastIndexOf(name, '.');
    if dot > 0 && name != ".." {
      ExtensionAfterDot(name, dot);
    }
  }

  lemma ExtensionAfterDot(name: string, dot: int)
    requires 0 < dot < |name| && name[dot] == '.'
    requires forall i :: dot < i < |name| ==> name[i] != '.'
    ensures '.' !in name[dot..][1..]
    ensures EndsWith(name, name[dot..])
    ensures !(forall i :: 0 < i < |name| ==> name[i] != '.')
  {
    assert name[dot..][1..] == name[dot + 1..];
    assert name[dot] == '.';
  }

  // ---- toLowerCase ---------------------------------------------------------

  function LowerChar(c: char): char
  {
    if 'A' <= c <= 'Z' then (c as int + 32) as char else c
  }

  /** JavaScript's `toLowerCase` on the ASCII letters; other characters are
      left as they are. */
  function LowerAscii(s: string): (r: string)
    ensures |r| == |s|
    ensures forall i :: 0 <= i < |s| ==> r[i] == LowerChar(s[i])
  {
    if s == [] then [] else [LowerChar(s[0])] + LowerAscii(s[1..])
  }

  lemma LowerAsciiConcat(a: string, b: string)
    ensures LowerAscii(a + b) == LowerAscii(a) + LowerAscii(b)
  {
  }

  /** Lower-casing keeps an extension an extension: a leading dot stays and
      no separator appears. */
  lemma LowerExtname(x: string)
    requires '/' !in x && (x == [] || x[0] == '.')
    ensures '/' !in LowerAscii(x) && (LowerAscii(x) == [] || LowerAscii(x)[0] == '.')
  {
    var e := LowerAscii(x);
    forall i | 0 <= i < |e| ensures e[i] != '/' {
      assert x[i] != '/';
    }
  }

  predicate HasUpperAscii(s: string)
  {
    exists i :: 0 <= i < |s| && 'A' <= s[i] <= 'Z'
  }

  /** Lower-casing leaves no upper-case ASCII letter behind. */
  lemma LowerAsciiNoUpper(s: string)
    ensures !HasUpperAscii(LowerAscii(s))
  {
    var r := LowerAscii(s);
    forall i | 0 <= i < |r| ensures !('A' <= r[i] <= 'Z') {
      assert r[i] == LowerChar(s[i]);
    }
  }

  /** Lower-casing changes a string exactly when it holds an upper-case
      ASCII letter. */
  lemma LowerAsciiFixed(s: string)
    ensures LowerAscii(s) == s <==> !HasUpperAscii(s)
  {
    if HasUpperAscii(s) {
      var i :| 0 <= i < |s| && 'A' <= s[i] <= 'Z';
      assert LowerAscii(s)[i] != s[i];
    }
  }

  // ---- Resolution ----------------------------------------------------------

  /** One piece of pathname resolution: "" and "." stay, ".." goes up (and
      stays put at the root), any other piece goes down into that entry. */
  function Step(dir: seq<string>, piece: string): seq<string>
  {
    if piece == "" || piece == "." then dir
    else if piece == ".." then (if dir == [] then [] else dir[..|dir| - 1])
    else dir + [piece]
  }

  function Walk(dir: seq<string>, pieces: seq<string>): seq<string>
  {
    if pieces == [] then dir else Step(Walk(dir, pieces[..|pieces| - 1]), pieces[|pieces| - 1])
  }

  lemma {:induction false} WalkConcat(dir: seq<string>, xs: seq<string>, ys: seq<string>)
    ensures Walk(dir, xs + ys) == Walk(Walk(dir, xs), ys)
    decreases |ys|
  {
    if ys == [] {
      assert xs + ys == xs;
    } else {
      WalkConcat(dir, xs, ys[..|ys| - 1]);
      assert (xs + ys)[..|xs + ys| - 1] == xs + ys[..|ys| - 1];
    }
  }

  /** The directory entry (as the list of names from the root) that a path
      string denotes when opened from the directory `cwd`: an absolute path
      starts from the root. */
  function Resolve(cwd: seq<string>, p: string): seq<string>
  {
    Walk(if StartsWith(p, "/") then [] else cwd, Split(p))
  }

  /** A name that is a single ordinary segment denotes the entry of that
      name directly inside the directory. */
  lemma PlainNameStaysInside(dir: seq<string>, name: string)
    requires '/' !in name && name != "" && name != "." && name != ".."
    ensures Resolve(dir, name) == dir + [name]
  {
    SplitSlashFree(name);
    assert name[..1][0] == name[0] != '/';
    assert Walk(dir, [name]) == Step(Walk(dir, []), name);
  }

  /** Python's `os.path.join(a, b)` on POSIX: an absolute `b` replaces `a`,
      otherwise a separator is inserted unless `a` is empty or ends in one. */
  function PyJoin(a: string, b: string): (r: string)
    ensures StartsWith(b, "/") ==> r == b
    ensures !StartsWith(b, "/") ==> EndsWith(r, b)
  {
    if StartsWith(b, "/") then b
    else if a == "" || EndsWith(a, "/") then a + b
    else a + "/" + b
  }
}

=== FILE: py_unquote.dfy ===
/** Python's `urllib.parse.unquote(string)` with its defaults (UTF-8,
    errors="replace"), which the Flask route applies to the `x-filename`
    header. It never fails: a `%` without two hex digits stays as it is, and
    octets that are not well-formed UTF-8 become U+FFFD. */
module PyUnquote {
  import opened Common
  import Utf8
  import opened PercentEncoding
  import UriComponent

  /** `unquote_to_bytes(s)`: the UTF-8 octets of `s` with every "%XY"
      triplet (either case of hex digit) replaced by its octet, scanning
      left to right; a `%` that starts no triplet is kept as the octet 0x25. */
  function UnquoteToBytes(s: string): (bs: seq<byte>)
    decreases |s|
  {
    if s == [] then []
    else match EscapedOctet(s, 0)
      case Some(b) => [b] + UnquoteToBytes(s[3..])
      case None => Utf8.EncodeScalar(s[0]) + UnquoteToBytes(s[1..])
  }

  /** Length of the run of ASCII characters at the front of `s`. */
  function AsciiRun(s: string): (k: nat)
    ensures k <= |s| && IsAscii(s[..k])
    ensures k < |s| ==> !IsAsciiChar(s[k])
  {
    if s == [] || !IsAsciiChar(s[0]) then 0
    else
      var k := 1 + AsciiRun(s[1..]);
      assert s[..k] == [s[0]] + s[1..][..k - 1];
      k
  }

  /** The general path of `unquote`: the string is cut into runs of ASCII
      and non-ASCII characters (`_asciire.split`); non-ASCII runs are kept,
      each ASCII run is unquoted to octets and decoded with replacement. */
  function UnquoteRuns(s: string): (r: string)
    ensures |r| <= |s|
    decreases |s|
  {
    if s == [] then ""
    else if !IsAsciiChar(s[0]) then [s[0]] + UnquoteRuns(s[1..])
    else
      var k := AsciiRun(s);
      AsciiUnquoteShrinks(s[..k]);
      Utf8.DecodeLossy(UnquoteToBytes(s[..k])) + UnquoteRuns(s[k..])
  }

  /** An ASCII run unquotes to at most as many octets as it has characters:
      each plain character is one octet, each triplet one octet. */
  lemma {:induction false} AsciiUnquoteShrinks(s: string)
    requires IsAscii(s)
    ensures |UnquoteToBytes(s)| <= |s|
    decreases |s|
  {
    if s != [] {
      match EscapedOctet(s, 0)
      case Some(_) =>
        assert IsAscii(s[3..]) by {
          forall i | 0 <= i < |s[3..]| ensures IsAsciiChar(s[3..][i]) {
            assert s[3..][i] == s[i + 3];
          }
        }
        AsciiUnquoteShrinks(s[3..]);
      case None =>
        assert IsAscii(s[1..]) by {
          forall i | 0 <= i < |s[1..]| ensures IsAsciiChar(s[1..][i]) {
            assert s[1..][i] == s[i + 1];
          }
        }
        assert |Utf8.EncodeScalar(s[0])| == 1 by {
          assert IsAsciiChar(s[0]);
        }
        AsciiUnquoteShrinks(s[1..]);
    }
  }

  /** `urllib.parse.unquote(s)`, with its fast path for a string without `%`.
      Decoding never lengthens the name. */
  function Unquote(s: string): (r: string)
    ensures |r| <= |s|
    ensures '%' !in s ==> r == s
  {
    if '%' !in s then s else UnquoteRuns(s)
  }

  // ---- Properties ----------------------------------------------------------

  lemma {:induction false} UnquoteEscapes(bs: seq<byte>, rest: string)
    ensures UnquoteToBytes(EscapeAll(bs) + rest) == bs + UnquoteToBytes(rest)
  {
    if bs != [] {
      var s := EscapeAll(bs) + rest;
      EscapedOctetOfEscapeAll("", bs, 0, rest);
      assert "" + EscapeAll(bs) + rest == s;
      assert s[3..] == EscapeAll(bs[1..]) + rest;
      UnquoteEscapes(bs[1..], rest);
      assert UnquoteToBytes(s) == [bs[0]] + UnquoteToBytes(s[3..]);
      assert bs == [bs[0]] + bs[1..];
      assert [bs[0]] + (bs[1..] + UnquoteToBytes(rest)) == bs + UnquoteToBytes(rest);
    } else {
      assert EscapeAll(bs) + rest == rest;
    }
  }

  /** Unquoting to octets turns a `encodeURIComponent` result back into the
      UTF-8 encoding of the original string. */
  lemma {:induction false} UnquoteToBytesOfEncode(s: string)
    ensures UnquoteToBytes(UriComponent.Encode(s)) == Utf8.EncodeString(s)
  {
    if s != [] {
      var c := s[0];
      var rest := UriComponent.Encode(s[1..]);
      UnquoteToBytesOfEncode(s[1..]);
      if UriComponent.IsUnreserved(c) {
        var t := [c] + rest;
        assert EscapedOctet(t, 0).None?;
        assert t[1..] == rest;
      } else {
        UnquoteEscapes(Utf8.EncodeScalar(c), rest);
      }
    }
  }

  lemma {:induction false} UnquoteRunsOfAscii(s: string)
    requires IsAscii(s) && s != []
    ensures UnquoteRuns(s) == Utf8.DecodeLossy(UnquoteToBytes(s))
  {
    var k := AsciiRun(s);
    assert k == |s|;
    assert s[..k] == s && s[k..] == "";
  }

  /** Python's `unquote` recovers every file name the JavaScript client
      escapes with `encodeURIComponent`, traversal sequences included. */
  lemma UnquoteOfEncode(s: string)
    ensures Unquote(UriComponent.Encode(s)) == s
  {
    var e := UriComponent.Encode(s);
    if '%' !in e {
      UriComponent.EncodeWithoutEscapes(s);
    } else {
      assert IsAscii(e) by {
        forall i | 0 <= i < |e|
          ensures IsAsciiChar(e[i])
        {
          assert UriComponent.IsUnreserved(e[i]) || e[i] == '%';
        }
      }
      UnquoteRunsOfAscii(e);
      UnquoteToBytesOfEncode(s);
      Utf8.LossyDecodesEncoding(s);
    }
  }

  /** Unlike `decodeURIComponent`, `unquote` keeps a stray `%`: there is no
      failure to report. */
  lemma StrayPercentKept()
    ensures Unquote("%") == "%"
    ensures UriComponent.Decode("%") == Err(UriComponent.UriMalformed)
  {
    var s := "%";
    assert AsciiRun(s) == 1;
    assert s[..1] == s && s[1..] == "";
    assert EscapedOctet(s, 0).None?;
    assert UnquoteToBytes(s) == [0x25 as byte] + UnquoteToBytes("");
    assert Utf8.DecodeLossy([0x25 as byte]) == ['%'] + Utf8.DecodeLossy([]);
    UriComponent.StrayPercentRejected("", "");
    assert "" + "%" + "" == s;
  }
}

=== FILE: upload_form.dfy ===
/** The home page's upload form, `handleSubmit`: it clears the message and
    the saved-file link, refuses to send without a file or with a file that is
    not `application/pdf`, otherwise posts the bytes to `/api/upload` with the
    escaped file name in `x-filename`, and reports success or failure.

    The state is `{message, uploadedUrl, uploading}`; a submission is the
    sequence of states the setter calls produce, one per call, starting with
    the state before the submit. What `fetch` and `res.json()` do is an
    input. */
module UploadForm {
  import opened Common
  import UriComponent

  /** The `File` chosen in the input: its name, its MIME type (`file.type`,
      "" when the browser does not know it) and its bytes. */
  datatype SelectedFile = SelectedFile(name: string, mimeType: string, bytes: seq<byte>)

  datatype FormState = FormState(message: string, uploadedUrl: string, uploading: bool)

  /** The request `fetch` is asked to send: method POST to `/api/upload`,
      with these two headers and the file as the body. */
  datatype UploadRequest = UploadRequest(filenameHeader: string, contentType: string, body: seq<byte>)

  /** What `res.json()` gives: a failure to parse, JSON `null` (on which
      `data.path` throws), or another value whose `path` property is a string
      or absent. */
  datatype JsonBody = Unparsable | JsonNull | JsonValue(path: Option<string>)

  /** What `fetch` does: throw (a network failure), or resolve with a
      response whose `ok` flag and body are given. */
  datatype FetchOutcome = NetworkError | Responded(ok: bool, body: JsonBody)

  datatype Submission = Submission(states: seq<FormState>, request: Option<UploadRequest>)
  {
    /** The state once `handleSubmit` has returned. */
    function Final(): FormState
      requires |states| >= 1
    {
      states[|states| - 1]
    }
  }

  const PdfType: string := "application/pdf"
  const NoFileMessage: string := "Please choose a PDF file."
  const WrongTypeMessage: string := "Only PDF files are accepted."
  const SuccessMessage: string := "Upload successful."
  const FailureMessage: string := "Upload failed. Check console for details."

  /** `file.type || "application/pdf"`. */
  function ContentType(mimeType: string): (t: string)
    ensures t != ""
    ensures mimeType != "" ==> t == mimeType
  {
    if mimeType != "" then mimeType else PdfType
  }

  /** The request for a file that passed both guards. */
  function RequestFor(file: SelectedFile): (r: UploadRequest)
    ensures UriComponent.Decode(r.filenameHeader) == Ok(file.name)
    ensures r.contentType != "" && r.body == file.bytes
  {
    UriComponent.DecodeEncode(file.name);
    UploadRequest(UriComponent.Encode(file.name), ContentType(file.mimeType), file.bytes)
  }

  /** The `try` block from `fetch` on: the states after `setUploading(true)`.
      Success sets the link (`data.path || ""`) and then the message; a
      network failure, a response that is not ok, an unparsable body or a
      `null` body lands in `catch`; `finally` clears `uploading`. */
  function AfterSend(s: FormState, outcome: FetchOutcome): (states: seq<FormState>)
    ensures |states| >= 2
    ensures !states[|states| - 1].uploading
  {
    match outcome
    case Responded(true, JsonValue(path)) =>
      var linked := s.(uploadedUrl := if path.Some? then path.value else "");
      var told := linked.(message := SuccessMessage);
      [linked, told, told.(uploading := false)]
    case _ =>
      var told := s.(message := FailureMessage);
      [told, told.(uploading := false)]
  }

  /** `handleSubmit(e)` from the state `before`, with `file` the selected
      file (`null` as None). */
  function HandleSubmit(before: FormState, file: Option<SelectedFile>, outcome: FetchOutcome): (r: Submission)
    ensures |r.states| >= 4 && r.states[0] == before
    ensures r.states[1].message == "" && r.states[2].message == "" && r.states[2].uploadedUrl == ""
    ensures r.request.Some? <==> file.Some? && file.value.mimeType == PdfType
    ensures file.None? ==> r.Final() == FormState(NoFileMessage, "", before.uploading)
    ensures file.Some? && file.value.mimeType != PdfType ==>
              r.Final() == FormState(WrongTypeMessage, "", before.uploading)
    ensures r.request.Some? ==>
              && r.request.value.filenameHeader == UriComponent.Encode(file.value.name)
              && r.request.value.contentType == PdfType
              && r.request.value.body == file.value.bytes
              && !r.Final().uploading
              && (forall k :: 3 <= k < |r.states| - 1 ==> r.states[k].uploading)
  {
    var cleared := before.(message := "");
    var reset := cleared.(uploadedUrl := "");
    var start := [before, cleared, reset];
    if file.None? then
      Submission(start + [reset.(message := NoFileMessage)], None)
    else if file.value.mimeType != PdfType then
      Submission(start + [reset.(message := WrongTypeMessage)], None)
    else
      var sending := reset.(uploading := true);
      var after := AfterSend(sending, outcome);
      assert forall k :: 0 <= k < |after| - 1 ==> after[k].uploading;
      Submission(start + [sending] + after, Some(RequestFor(file.value)))
  }

  /** Whether the server accepted the upload and answered with a body the
      form can read. */
  predicate Succeeded(outcome: FetchOutcome)
  {
    outcome.Responded? && outcome.ok && outcome.body.JsonValue?
  }

  // ---- Properties ----------------------------------------------------------

  /** After a sent request the message says success exactly when the
      response was ok with a readable body; on success the link is the
      returned path or "", on failure it stays "". */
  lemma SentOutcome(before: FormState, file: SelectedFile, outcome: FetchOutcome)
    requires file.mimeType == PdfType
    ensures var f := HandleSubmit(before, Some(file), outcome).Final();
            && (f.message == SuccessMessage <==> Succeeded(outcome))
            && (f.message == FailureMessage <==> !Succeeded(outcome))
            && (Succeeded(outcome) ==>
                  f.uploadedUrl == if outcome.body.path.Some? then outcome.body.path.value else "")
            && (!Succeeded(outcome) ==> f.uploadedUrl == "")
  {
  }

  /** A link is shown only after a successful upload. */
  lemma LinkOnlyOnSuccess(before: FormState, file: Option<SelectedFile>, outcome: FetchOutcome)
    ensures var r := HandleSubmit(before, file, outcome);
            r.Final().uploadedUrl != "" ==> r.request.Some? && Succeeded(outcome) && r.Final().message == SuccessMessage
  {
  }

  /** The final message is one of the four the handler can set, whatever
      the inputs. */
  lemma FinalMessageIsOneOfFour(before: FormState, file: Option<SelectedFile>, outcome: FetchOutcome)
    ensures HandleSubmit(before, file, outcome).Final().message
              in {NoFileMessage, WrongTypeMessage, SuccessMessage, FailureMessage}
  {
  }

  /** The no-file check comes first: without a file nothing is sent and the
      outcome of `fetch` does not matter. */
  lemma NoFileIgnoresFetch(before: FormState, a: FetchOutcome, b: FetchOutcome)
    ensures HandleSubmit(before, None, a) == HandleSubmit(before, None, b)
    ensures HandleSubmit(before, None, a).Final().message == NoFileMessage
  {
  }
}

=== FILE: upload_route.dfy ===
/** The Next.js route `POST /api/upload`: it reads the body, takes the file
    name from the `x-filename` header (or makes one up from the clock),
    decodes it, keeps only its last path segment, makes sure it carries an
    extension, writes the bytes into `public/uploads`, and when the bytes start
    with "%PDF" hands them to `pdf-parse`. Every outcome after a successful
    write is a 200 response; a failure before or during the write is a 500.

    The uploads directory is a map from file name to contents. The clock,
    the file system's failures and the parser's result are inputs. */
module UploadRoute {
  import opened Common
  import Utf8
  import UriComponent
  import opened PosixPath

  /** The files in `public/uploads`, by name. */
  type Uploads = map<string, seq<byte>>

  /** What `pdf-parse` does with a buffer: resolve with an object whose
      `text` may be missing or empty, or throw a value `e` whose `e.message`
      (as text, "" when missing or empty) and `String(e)` are given. */
  datatype ParseOutcome =
    | Parsed(text: Option<string>)
    | Threw(message: string, rendered: string)

  /** Everything outside the request: `Date.now()`, a failure of
      `req.arrayBuffer()`, a failure of `mkdir` or `writeFile` (each as the
      `String(err)` the handler would send), and the parser's behaviour. */
  datatype Environment = Environment(
    now: nat,
    readError: Option<string>,
    writeError: Option<string>,
    parse: ParseOutcome)

  datatype Request = Request(filenameHeader: Option<string>, body: seq<byte>)

  /** The JSON the handler answers with: `{ok: true, path, text, parseError}`
      or `{ok: false, error}`. */
  datatype Response =
    | Stored(path: string, text: string, parseError: Option<string>)
    | Failed(error: string)
  {
    function Status(): int
    {
      if Stored? then 200 else 500
    }
  }

  datatype Outcome = Outcome(response: Response, uploads: Uploads)

  /** The four octets of "%PDF". */
  const PdfMagic: seq<byte> := [0x25, 0x50, 0x44, 0x46]

  const NotPdfMessage: string := "file does not start with %PDF header; skipping pdf-parse"

  /** `String(err)` for the URIError `decodeURIComponent` throws. */
  const UriErrorText: string := "URIError: URI malformed"

  const UploadsPrefix: string := "/uploads/"

  // ---- File name -----------------------------------------------------------

  /** The name made up from the clock, `"upload-" + Date.now() + ".pdf"`. */
  function DefaultName(now: nat): (d: string)
    ensures StartsWith(d, "upload-") && EndsWith(d, ".pdf")
  {
    "upload-" + Decimal(now) + ".pdf"
  }

  /** `req.headers.get("x-filename") || "upload-" + Date.now() + ".pdf"`: a
      non-empty header is taken as it is, and the name is never empty. */
  function RawName(header: Option<string>, now: nat): (raw: string)
    ensures raw != ""
    ensures header.Some? && header.value != "" ==> raw == header.value
  {
    if header.Some? && header.value != "" then header.value else DefaultName(now)
  }

  /** `path.extname(filename).toLowerCase() || ".pdf"`: always a dot,
      possibly on its own, and never a separator. */
  function Extension(filename: string): (ext: string)
    ensures |ext| >= 1 && ext[0] == '.' && '/' !in ext
    ensures Extname(filename) != "" ==> |ext| == |Extname(filename)|
    ensures Extname(filename) == "" ==> ext == ".pdf"
  {
    var x := Extname(filename);
    var e := LowerAscii(x);
    LowerExtname(x);
    if e == "" then ".pdf" else e
  }

  /** The name the file is stored under, for a decoded header value: its
      basename, with the extension appended unless the basename already ends
      with it. The result is one ordinary directory entry name: never empty,
      never "." or "..", without a separator, and it ends with the extension. */
  function StoredName(decoded: string): (safe: string)
    ensures '/' !in safe
    ensures safe != "" && safe != "." && safe != ".."
    ensures EndsWith(safe, Extension(Basename(decoded)))
    ensures StartsWith(safe, Basename(decoded))
  {
    var filename := Basename(decoded);
    var ext := Extension(filename);
    var safe := if EndsWith(filename, ext) then filename else filename + ext;
    assert EndsWith(safe, ext) by {
      if !EndsWith(filename, ext) {
        assert safe[|safe| - |ext|..] == ext;
      }
    }
    assert StartsWith(safe, filename) by {
      assert safe[..|filename|] == filename;
    }
    assert safe != "." && safe != ".." by {
      if |safe| <= 2 {
        NoDotNames(filename, ext, safe);
      }
    }
    safe
  }

  lemma NoDotNames(filename: string, ext: string, safe: string)
    requires '/' !in filename
    requires ext == Extension(filename)
    requires safe == (if EndsWith(filename, ext) then filename else filename + ext)
    requires |safe| <= 2
    ensures safe != "." && safe != ".."
  {
    assert Basename(filename) == filename;
  }

  /** The stored name for the header as sent, or None when the header does
      not decode. */
  function TargetName(header: Option<string>, now: nat): (r: Option<string>)
    ensures r.None? <==> UriComponent.Decode(RawName(header, now)).Err?
  {
    match UriComponent.Decode(RawName(header, now))
    case Err(_) => None
    case Ok(decoded) => Some(StoredName(decoded))
  }

  // ---- Content sniffing and parsing ----------------------------------------

  /** The first four octets (fewer when the buffer is shorter), decoded as
      UTF-8 with replacement: at most one character per octet read. */
  function SniffedHeader(buffer: seq<byte>): (h: string)
    ensures |h| <= 4 && |h| <= |buffer|
  {
    Utf8.DecodeLossy(buffer[..if |buffer| < 4 then |buffer| else 4])
  }

  /** The guard in front of the parser: the sniffed header reads "%PDF".
      Only a buffer of at least four octets can pass it. */
  predicate LooksLikePdf(buffer: seq<byte>): (b: bool)
    ensures b ==> |buffer| >= 4
  {
    SniffedHeader(buffer) == "%PDF"
  }

  /** The text comparison the handler makes is the octet comparison it is
      meant to be: the header reads "%PDF" exactly when the buffer has at
      least four octets and they are 0x25 0x50 0x44 0x46. */
  lemma SniffIsMagicCheck(buffer: seq<byte>)
    ensures LooksLikePdf(buffer) <==> |buffer| >= 4 && buffer[..4] == PdfMagic
  {
    var front := buffer[..if |buffer| < 4 then |buffer| else 4];
    if LooksLikePdf(buffer) {
      Utf8.LossyAsciiPrefix(front, "%PDF");
      assert AsciiBytes("%PDF") == PdfMagic;
    }
    if |buffer| >= 4 && buffer[..4] == PdfMagic {
      assert front == PdfMagic;
      var t3 := Utf8.DecodeLossy(PdfMagic[3..]);
      assert t3 == "F" by {
        assert PdfMagic[3..][1..] == [];
      }
      assert Utf8.DecodeLossy(PdfMagic[2..]) == "DF" by {
        assert PdfMagic[2..][1..] == PdfMagic[3..];
      }
      assert Utf8.DecodeLossy(PdfMagic[1..]) == "PDF" by {
        assert PdfMagic[1..][1..] == PdfMagic[2..];
      }
      assert Utf8.DecodeLossy(PdfMagic) == "%PDF";
    }
  }

  /** The `parseError` reported for a thrown value: its message when that is
      non-empty, otherwise the value's rendering as a string. The text is
      empty only when both are. */
  function ThrownText(message: string, rendered: string): (t: string)
    ensures message != "" ==> t == message
    ensures t == "" <==> message == "" && rendered == ""
  {
    if message != "" then message else rendered
  }

  /** The inner try block: the extracted text and `parseError`. The parser
      runs only on a buffer that looks like a PDF. */
  function Extract(buffer: seq<byte>, parse: ParseOutcome): (r: (string, Option<string>))
    ensures r.1.None? ==> LooksLikePdf(buffer) && parse.Parsed?
    ensures r.0 != "" ==> LooksLikePdf(buffer) && parse.Parsed? && r.1.None?
  {
    if !LooksLikePdf(buffer) then ("", Some(NotPdfMessage))
    else match parse
      case Parsed(text) => (match text case Some(t) => t case None => "", None)
      case Threw(message, rendered) => ("", Some(ThrownText(message, rendered)))
  }

  /** `"/uploads/" + encodeURIComponent(safeFilename)`. */
  function PublicPath(name: string): (p: string)
    ensures StartsWith(p, UploadsPrefix) && '/' !in p[|UploadsPrefix|..]
  {
    UriComponent.EncodeHasNoSlash(name);
    assert (UploadsPrefix + UriComponent.Encode(name))[|UploadsPrefix|..] == UriComponent.Encode(name);
    UploadsPrefix + UriComponent.Encode(name)
  }

  // ---- The handler ---------------------------------------------------------

  /** `POST(req)`: the response and the uploads directory afterwards. The
      handler answers 200 exactly when the body was read, the name decoded
      and the write succeeded; then exactly one entry changes, the stored
      name's, which now holds the body, whatever the body is. A 500 leaves the
      directory as it was. */
  function Post(req: Request, env: Environment, uploads: Uploads): (o: Outcome)
    ensures o.response.Status() == 200 <==>
              env.readError.None? && TargetName(req.filenameHeader, env.now).Some? && env.writeError.None?
    ensures o.response.Failed? ==> o.uploads == uploads
    ensures o.response.Stored? ==>
              var name := TargetName(req.filenameHeader, env.now).value;
              && o.uploads == uploads[name := req.body]
              && o.response.path == PublicPath(name)
    ensures o.response.Stored? ==>
              (o.response.text, o.response.parseError) == Extract(req.body, env.parse)
  {
    if env.readError.Some? then Outcome(Failed(env.readError.value), uploads)
    else match UriComponent.Decode(RawName(req.filenameHeader, env.now))
      case Err(_) => Outcome(Failed(UriErrorText), uploads)
      case Ok(decoded) =>
        var safe := StoredName(decoded);
        if env.writeError.Some? then Outcome(Failed(env.writeError.value), uploads)
        else
          var (text, parseError) := Extract(req.body, env.parse);
          Outcome(Stored(PublicPath(safe), text, parseError), uploads[safe := req.body])
  }

  // ---- Properties ----------------------------------------------------------

  /** Whatever the header says, `../../etc/passwd` included, the stored name
      resolves to an entry directly inside the uploads directory. */
  lemma StoredNameStaysInside(header: Option<string>, now: nat, uploadsDir: seq<string>)
    ensures TargetName(header, now).Some? ==>
              Resolve(uploadsDir, TargetName(header, now).value) == uploadsDir + [TargetName(header, now).value]
  {
    if TargetName(header, now).Some? {
      PlainNameStaysInside(uploadsDir, TargetName(header, now).value);
    }
  }

  /** The made-up name holds no escape and no separator, and its only dot
      starts ".pdf". */
  lemma DefaultNameShape(now: nat)
    ensures '%' !in DefaultName(now) && '/' !in DefaultName(now)
    ensures DefaultName(now) == ("upload-" + Decimal(now)) + ['.'] + "pdf"
  {
    var d := DefaultName(now);
    assert forall i :: 0 <= i < |Decimal(now)| ==> d[7 + i] == Decimal(now)[i];
  }

  lemma DefaultNameExtension(now: nat)
    ensures Extension(DefaultName(now)) == ".pdf"
  {
    var x := "upload-" + Decimal(now);
    DefaultNameShape(now);
    DefaultStemSlashFree(now);
    PdfNameExtension(x);
  }

  lemma DefaultStemSlashFree(now: nat)
    ensures '/' !in "upload-" + Decimal(now)
  {
    var x := "upload-" + Decimal(now);
    var d := DefaultName(now);
    DefaultNameShape(now);
    forall i | 0 <= i < |x| ensures x[i] != '/' {
      assert x[i] == d[i];
    }
  }

  /** A slash-free stem followed by ".pdf" has the extension ".pdf". */
  lemma PdfNameExtension(x: string)
    requires '/' !in x && x != ""
    ensures Extension(x + ['.'] + "pdf") == ".pdf"
  {
    PdfExtname(x);
    PdfHasNoUpper();
    LowerExtensionUsed(x + ['.'] + "pdf");
  }

  lemma PdfExtname(x: string)
    requires '/' !in x && x != ""
    ensures Extname(x + ['.'] + "pdf") == ".pdf"
  {
    PdfIsPlainWord();
    ExtnameOfPdfName(x, "pdf");
  }

  /** "pdf" is a non-empty word with no dot or separator, and a dot before it gives ".pdf". */
  lemma PdfIsPlainWord()
    ensures ['.'] + "pdf" == ".pdf"
    ensures '/' !in "pdf" && '.' !in "pdf" && "pdf" != ""
  {
  }

  lemma PdfHasNoUpper()
    ensures !HasUpperAscii(".pdf")
  {
  }

  /** An extension without upper-case letters is used as it is. */
  lemma LowerExtensionUsed(name: string)
    requires Extname(name) != "" && !HasUpperAscii(Extname(name))
    ensures Extension(name) == Extname(name)
  {
    LowerAsciiFixed(Extname(name));
  }

  /** A slash-free name that already ends with its extension is stored as it is. */
  lemma EndingWithExtensionKept(name: string)
    requires '/' !in name && EndsWith(name, Extension(name))
    ensures StoredName(name) == name
  {
  }

  /** Without a usable header the file is called "upload-<now>.pdf". */
  lemma DefaultNameUsed(header: Option<string>, now: nat)
    requires header.None? || header.value == ""
    ensures TargetName(header, now) == Some(DefaultName(now))
  {
    var d := DefaultName(now);
    DefaultNameShape(now);
    DefaultNameExtension(now);
    EndingWithExtensionKept(d);
  }

  /** A name without an extension gets ".pdf" appended (".pdf" alone, whose
      dot is its first character, already ends with it). */
  lemma NoExtensionGetsPdf(name: string)
    requires '/' !in name && Extname(name) == "" && name != ".pdf"
    ensures StoredName(name) == name + ".pdf"
  {
  }

  /** A name whose extension is already lower case is kept as it is. */
  lemma LowerCaseExtensionKept(name: string)
    requires '/' !in name && Extname(name) != "" && !HasUpperAscii(Extname(name))
    ensures StoredName(name) == name
  {
    LowerExtensionUsed(name);
    ExtnameShape(name);
  }

  /** A name whose extension has upper-case letters gets the lower-cased
      extension appended, so "A.PDF" is stored as "A.PDF.pdf". */
  lemma UpperCaseExtensionAppended(name: string)
    requires '/' !in name && Extname(name) != "" && HasUpperAscii(Extname(name))
    ensures StoredName(name) == name + LowerAscii(Extname(name))
  {
    var x := Extname(name);
    var ext := Extension(name);
    LowerAsciiFixed(x);
    ExtnameShape(name);
    SuffixOfLength(name, x, ext);
  }

  lemma ExtnameOfPdfName(x: string, e: string)
    requires '/' !in x && '/' !in e && '.' !in e && x != "" && e != ""
    ensures Extname(x + ['.'] + e) == ['.'] + e
  {
    var n := x + ['.'] + e;
    assert '/' !in n;
    assert Basename(n) == n;
    LastIndexOfBefore(x, '.', e);
    assert n != "..";
    assert n[|x|..] == ['.'] + e;
  }

  /** A name "x.e" whose extension has no upper-case letter is kept. */
  lemma DottedNameKept(x: string, e: string)
    requires '/' !in x && '/' !in e && '.' !in e && x != "" && e != "" && !HasUpperAscii(e)
    ensures StoredName(x + ['.'] + e) == x + ['.'] + e
  {
    ExtnameOfPdfName(x, e);
    assert !HasUpperAscii(['.'] + e) by {
      forall i | 0 <= i < |['.'] + e| ensures !('A' <= (['.'] + e)[i] <= 'Z') {
        if i > 0 { assert (['.'] + e)[i] == e[i - 1]; }
      }
    }
    LowerCaseExtensionKept(x + ['.'] + e);
  }

  /** A name "x.E" whose extension has an upper-case letter is stored as
      "x.E.e", with `e` the lower-cased extension. */
  lemma DottedNameAppended(x: string, e: string)
    requires '/' !in x && '/' !in e && '.' !in e && x != "" && e != "" && HasUpperAscii(e)
    ensures StoredName(x + ['.'] + e) == x + ['.'] + e + ['.'] + LowerAscii(e)
  {
    ExtnameOfPdfName(x, e);
    assert HasUpperAscii(['.'] + e) by {
      var i :| 0 <= i < |e| && 'A' <= e[i] <= 'Z';
      assert (['.'] + e)[i + 1] == e[i];
    }
    UpperCaseExtensionAppended(x + ['.'] + e);
    LowerAsciiConcat(['.'], e);
    assert LowerAscii(['.']) == ['.'];
    ConcatAssoc(x + ['.'] + e, ['.'], LowerAscii(e));
  }

  /** "a.pdf" is "a", a dot and the lower-case word "pdf". */
  lemma LowerDottedName()
    ensures !HasUpperAscii("pdf") && "a" + ['.'] + "pdf" == "a.pdf"
  {
  }

  /** "a.pdf" is kept as it is. */
  lemma LowerCaseExample()
    ensures StoredName("a.pdf") == "a.pdf"
  {
    LowerDottedName();
    DottedNameKept("a", "pdf");
  }

  /** "A.PDF" is "A", a dot and the upper-case word "PDF", which lower-cases to "pdf". */
  lemma UpperDottedName()
    ensures HasUpperAscii("PDF") && LowerAscii("PDF") == "pdf"
    ensures "A" + ['.'] + "PDF" == "A.PDF" && "A.PDF" + ['.'] + "pdf" == "A.PDF.pdf"
  {
    assert "PDF"[0] == 'P';
  }

  /** "A.PDF" is stored as "A.PDF.pdf". */
  lemma UpperCaseExample()
    ensures StoredName("A.PDF") == "A.PDF.pdf"
  {
    UpperDottedName();
    DottedNameAppended("A", "PDF");
  }

  lemma ExtnameWithoutDot(name: string)
    requires '/' !in name && '.' !in name
    ensures Extname(name) == ""
  {
  }

  /** "report" is stored as "report.pdf". */
  lemma NoExtensionExample()
    ensures StoredName("report") == "report.pdf"
  {
    ExtnameWithoutDot("report");
    NoExtensionGetsPdf("report");
  }

  /** Only the basename of the decoded header matters. */
  lemma StoredNameOfBasename(decoded: string)
    ensures StoredName(decoded) == StoredName(Basename(decoded))
  {
    BasenameIdempotent(decoded);
  }

  lemma PasswdStored()
    ensures StoredName("passwd") == "passwd.pdf"
  {
    ExtnameWithoutDot("passwd");
    NoExtensionGetsPdf("passwd");
  }

  /** A traversal attempt: "../../etc/passwd" is
      stored as "passwd.pdf". */
  lemma TraversalNameFlattened(now: nat)
    ensures TargetName(Some("../../etc/passwd"), now) == Some("passwd.pdf")
  {
    TraversalHeaderDecodes();
    StoredNameOfBasename("../../etc/passwd");
    PasswdStored();
  }

  /** The header "../../etc/passwd" is the raw name whatever the clock, has no escape to decode, and has the basename "passwd". */
  lemma TraversalHeaderDecodes()
    ensures forall now :: RawName(Some("../../etc/passwd"), now) == "../../etc/passwd"
    ensures UriComponent.Decode("../../etc/passwd") == Ok("../../etc/passwd")
    ensures Basename("../../etc/passwd") == "passwd"
  {
    assert '%' !in "../../etc/passwd";
    TraversalBasename();
  }

  lemma TraversalBasename()
    ensures Basename("../../etc/passwd") == "passwd"
  {
    assert "../../etc/passwd" == "../../etc" + "/" + "passwd";
    BasenameAfterSlash("../../etc", "passwd");
  }

  /** A name with a stray `%` makes the route answer 500 and write nothing. */
  lemma MalformedHeaderRejected(uploads: Uploads, env: Environment, body: seq<byte>)
    requires env.readError.None?
    ensures var o := Post(Request(Some("report%.pdf"), body), env, uploads);
            o.response == Failed(UriErrorText) && o.response.Status() == 500 && o.uploads == uploads
  {
    ReportHeaderUndecodable();
  }

  /** The header "report%.pdf" is the raw name whatever the clock, and its `%` makes decoding fail. */
  lemma ReportHeaderUndecodable()
    ensures UriComponent.Decode(RawName(Some("report%.pdf"), 0)) == Err(UriComponent.UriMalformed)
    ensures forall now :: RawName(Some("report%.pdf"), now) == "report%.pdf"
  {
    UriComponent.StrayPercentRejected("report", ".pdf");
    assert "report" + "%" + ".pdf" == "report%.pdf";
  }

  /** The public path has exactly one separator after "/uploads", and
      decoding its last segment names the stored file. */
  lemma PublicPathShape(name: string)
    ensures Split(PublicPath(name)) == ["", "uploads", UriComponent.Encode(name)]
    ensures UriComponent.Decode(UriComponent.Encode(name)) == Ok(name)
  {
    var e := UriComponent.Encode(name);
    UriComponent.EncodeHasNoSlash(name);
    UploadsPrefixSplits(e);
    SplitAround("/uploads", e);
    SplitSlashFree(e);
    UriComponent.DecodeEncode(name);
  }

  /** "/uploads/" + e is "/uploads", a separator and e; "/uploads" splits into "" and "uploads". */
  lemma UploadsPrefixSplits(e: string)
    ensures UploadsPrefix + e == "/uploads" + "/" + e
    ensures Split("/uploads") == ["", "uploads"]
  {
    assert "/uploads" == "" + "/" + "uploads";
    SplitAround("", "uploads");
    SplitSlashFree("");
    SplitSlashFree("uploads");
  }

  /** Bytes that do not start with "%PDF" never reach the parser: the answer
      is the same whatever the parser would have done, with empty text and
      the fixed diagnostic. */
  lemma NonPdfSkipsParser(req: Request, env: Environment, uploads: Uploads, other: ParseOutcome)
    requires env.readError.None? && env.writeError.None?
    requires |req.body| < 4 || req.body[..4] != PdfMagic
    ensures Post(req, env, uploads).response.Stored? <==> TargetName(req.filenameHeader, env.now).Some?
    ensures Post(req, env, uploads).response.Stored? ==>
              Post(req, env, uploads).response.text == ""
              && Post(req, env, uploads).response.parseError == Some(NotPdfMessage)
    ensures Post(req, env, uploads) == Post(req, env.(parse := other), uploads)
  {
    SniffIsMagicCheck(req.body);
  }

  /** Bytes that start with "%PDF" are parsed: a throw becomes `parseError`
      with empty text, a result gives its text (or "") and no error. Either
      way the answer is 200 once the name decodes. */
  lemma PdfIsParsed(req: Request, env: Environment, uploads: Uploads)
    requires env.readError.None? && env.writeError.None?
    requires |req.body| >= 4 && req.body[..4] == PdfMagic
    ensures Post(req, env, uploads).response.Stored? <==> TargetName(req.filenameHeader, env.now).Some?
    ensures var r := Post(req, env, uploads).response;
            r.Stored? ==>
            && (env.parse.Threw? ==>
                  r.text == "" && r.parseError == Some(ThrownText(env.parse.message, env.parse.rendered)))
            && (env.parse.Parsed? ==>
                  r.parseError.None? && r.text == (if env.parse.text.Some? then env.parse.text.value else ""))
  {
    SniffIsMagicCheck(req.body);
  }

  /** A whole request: ten octets that are not a PDF, sent as
      "../../etc/passwd", are stored as "passwd.pdf" and answered with 200,
      empty text and the diagnostic. */
  lemma TraversalExample(env: Environment, uploads: Uploads)
    requires env.readError.None? && env.writeError.None?
    ensures var body := AsciiBytes("not a pdf\n");
            Post(Request(Some("../../etc/passwd"), body), env, uploads)
              == Outcome(Stored("/uploads/passwd.pdf", "", Some(NotPdfMessage)),
                         uploads["passwd.pdf" := body])
  {
    var body := AsciiBytes("not a pdf\n");
    TraversalNameFlattened(env.now);
    TraversalBody();
    NonPdfSkipsParser(Request(Some("../../etc/passwd"), body), env, uploads, env.parse);
    PasswdPath();
  }

  lemma TraversalBody()
    ensures |AsciiBytes("not a pdf\n")| >= 4 && AsciiBytes("not a pdf\n")[..4] != PdfMagic
  {
    var body := AsciiBytes("not a pdf\n");
    assert body[0] as int == 'n' as int;
    assert body[..4][0] == body[0] != PdfMagic[0];
  }

  lemma PasswdPath()
    ensures PublicPath("passwd.pdf") == "/uploads/passwd.pdf"
  {
    var n := "passwd.pdf";
    assert forall i :: 0 <= i < |n| ==> UriComponent.IsUnreserved(n[i]);
    assert UploadsPrefix + n == "/uploads/passwd.pdf";
  }
}

=== FILE: uri_component.dfy ===
/** JavaScript's `encodeURIComponent` and `decodeURIComponent` (the Encode
    and Decode operations of the ECMAScript standard with an empty set of
    characters left undecoded). The client escapes the file name with the
    first; the upload route unescapes the `x-filename` header with the second,
    which throws a URIError on a malformed escape. */
module UriComponent {
  import opened Common
  import Utf8
  import opened PercentEncoding

  /** The characters `encodeURIComponent` leaves as they are:
      A-Z a-z 0-9 - _ . ! ~ * ' ( ). Every other character, `/` and `%`
      included, is escaped. */
  predicate IsUnreserved(c: char)
  {
    || 'A' <= c <= 'Z' || 'a' <= c <= 'z' || '0' <= c <= '9'
    || c == '-' || c == '_' || c == '.' || c == '!' || c == '~'
    || c == '*' || c == '\'' || c == '(' || c == ')'
  }

  function EncodeChar(c: char): (e: string)
    ensures |e| >= 1
    ensures IsUnreserved(c) ==> e == [c]
    ensures !IsUnreserved(c) ==> e[0] == '%'
  {
    if IsUnreserved(c) then [c] else EscapeAll(Utf8.EncodeScalar(c))
  }

  lemma EncodeCharAlphabet(c: char)
    ensures forall i :: 0 <= i < |EncodeChar(c)| ==> IsUnreserved(EncodeChar(c)[i]) || EncodeChar(c)[i] == '%'
  {
    if !IsUnreserved(c) {
      EscapeAllAlphabet(Utf8.EncodeScalar(c));
    }
  }

  lemma {:induction false} EscapeAllAlphabet(bs: seq<byte>)
    ensures forall i :: 0 <= i < |EscapeAll(bs)| ==> IsUnreserved(EscapeAll(bs)[i]) || EscapeAll(bs)[i] == '%'
  {
    if bs != [] {
      EscapeAllAlphabet(bs[1..]);
      var e := Escape(bs[0]);
      assert EscapeAll(bs) == e + EscapeAll(bs[1..]);
    }
  }

  /** `encodeURIComponent(s)`: the result is printable ASCII drawn from the
      unreserved characters and `%` only, so in particular it holds no `/`;
      a string of unreserved characters is its own encoding. */
  function Encode(s: string): (r: string)
    ensures forall i :: 0 <= i < |r| ==> IsUnreserved(r[i]) || r[i] == '%'
    ensures (forall i :: 0 <= i < |s| ==> IsUnreserved(s[i])) ==> r == s
    ensures |r| >= |s|
  {
    if s == [] then ""
    else
      EncodeCharAlphabet(s[0]);
      EncodeChar(s[0]) + Encode(s[1..])
  }

  /** In particular an encoding never holds a separator. */
  lemma EncodeHasNoSlash(s: string)
    ensures '/' !in Encode(s)
  {
    var e := Encode(s);
    forall i | 0 <= i < |e| ensures e[i] != '/' {
      assert IsUnreserved(e[i]) || e[i] == '%';
    }
  }

  /** An encoding without `%` is the string itself. */
  lemma {:induction false} EncodeWithoutEscapes(s: string)
    requires '%' !in Encode(s)
    ensures Encode(s) == s
  {
    if s != [] {
      assert Encode(s) == EncodeChar(s[0]) + Encode(s[1..]);
      assert Encode(s)[0] == EncodeChar(s[0])[0];
      assert Encode(s[1..]) == Encode(s)[|EncodeChar(s[0])|..];
      EncodeWithoutEscapes(s[1..]);
    }
  }

  // ---- Decoding ------------------------------------------------------------

  /** The error `decodeURIComponent` throws; `String(err)` renders it as
      "URIError: URI malformed" in V8. */
  datatype UriError = UriMalformed

  /** The continuation octets of an escape group: triplets number `j` to
      `n - 1` of `s`, each a well-formed escape of a 10xxxxxx octet. */
  function Trailing(s: string, n: nat, j: nat): (r: Option<seq<byte>>)
    requires 1 <= j <= n && 3 * n <= |s|
    ensures r.Some? ==> |r.value| == n - j
    ensures r.Some? ==> forall i :: 0 <= i < |r.value| ==> Utf8.IsContinuation(r.value[i])
    decreases n - j
  {
    if j == n then Some([])
    else match EscapedOctet(s, 3 * j)
      case None => None
      case Some(b) =>
        if !Utf8.IsContinuation(b) then None
        else match Trailing(s, n, j + 1)
          case None => None
          case Some(rest) => Some([b] + rest)
  }

  /** One escape group at the front of `s`: the character it decodes to and
      how many characters it spans, or None where the ECMAScript Decode
      operation throws (a `%` without two hex digits after it, an octet that
      cannot start a sequence, too few or malformed continuation escapes, or
      octets that are not the shortest UTF-8 encoding of a scalar value). */
  function DecodeGroup(s: string): (r: Option<(char, nat)>)
    requires |s| >= 1 && s[0] == '%'
    ensures r.Some? ==> 3 <= r.value.1 <= |s|
  {
    match EscapedOctet(s, 0)
    case None => None
    case Some(b) =>
      var n := Utf8.AnnouncedLength(b);
      if n == 1 then Some((b as int as char, 3))
      else if n == 0 || |s| < 3 * n then None
      else match Trailing(s, n, 1)
        case None => None
        case Some(rest) =>
          match Utf8.DecodeOctets([b] + rest)
          case None => None
          case Some(c) => Some((c, 3 * n))
  }

  function Prepend(c: char, r: Result<string, UriError>): Result<string, UriError>
  {
    match r
    case Ok(t) => Ok([c] + t)
    case Err(e) => Err(e)
  }

  /** `decodeURIComponent(s)`: characters other than `%` are kept, each
      escape group becomes the character it encodes, and any malformed group
      makes the whole call fail. */
  function Decode(s: string): (r: Result<string, UriError>)
    ensures '%' !in s ==> r == Ok(s)
    ensures r.Ok? ==> |r.value| <= |s|
    decreases |s|
  {
    if s == [] then Ok("")
    else if s[0] != '%' then
      assert s == [s[0]] + s[1..];
      Prepend(s[0], Decode(s[1..]))
    else match DecodeGroup(s)
      case None => Err(UriMalformed)
      case Some((c, len)) => Prepend(c, Decode(s[len..]))
  }

  /** The continuation triplets of an encoded character read back as its
      continuation octets. */
  lemma {:induction false} TrailingOfEncoding(os: seq<byte>, rest: string, j: nat)
    requires Utf8.IsFramed(os) && 1 <= j <= |os|
    ensures Trailing(EscapeAll(os) + rest, |os|, j) == Some(os[j..])
    decreases |os| - j
  {
    if j < |os| {
      var s := EscapeAll(os) + rest;
      EscapedOctetOfEscapeAll("", os, j, rest);
      assert "" + EscapeAll(os) + rest == s;
      TrailingOfEncoding(os, rest, j + 1);
      assert os[j..] == [os[j]] + os[j + 1..];
    } else {
      assert os[j..] == [];
    }
  }

  /** Decoding sees the encoding of one character as that character. */
  lemma DecodeEncodedChar(c: char, rest: string)
    ensures Decode(EncodeChar(c) + rest) == Prepend(c, Decode(rest))
  {
    if IsUnreserved(c) {
      assert (EncodeChar(c) + rest)[1..] == rest;
    } else {
      DecodeEscapedChar(c, rest);
    }
  }

  lemma DecodeEscapedChar(c: char, rest: string)
    requires !IsUnreserved(c)
    ensures Decode(EscapeAll(Utf8.EncodeScalar(c)) + rest) == Prepend(c, Decode(rest))
  {
    var os := Utf8.EncodeScalar(c);
    var n := |os|;
    var s := EscapeAll(os) + rest;
    EscapedOctetOfEscapeAll("", os, 0, rest);
    assert "" + EscapeAll(os) + rest == s;
    assert s[3 * n..] == rest;
    Utf8.DecodeEncode(c);
    if n > 1 {
      TrailingOfEncoding(os, rest, 1);
      assert [os[0]] + os[1..] == os;
    }
    assert DecodeGroup(s) == Some((c, 3 * n));
  }

  /** The server's `decodeURIComponent` undoes the client's
      `encodeURIComponent` for every string. */
  lemma {:induction false} DecodeEncode(s: string)
    ensures Decode(Encode(s)) == Ok(s)
  {
    if s != [] {
      DecodeEncode(s[1..]);
      DecodeEncodedChar(s[0], Encode(s[1..]));
      assert [s[0]] + s[1..] == s;
    }
  }

  /** A `%` not followed by two hex digits, after a stretch without escapes,
      makes decoding fail: this is the URIError of a malformed header. */
  lemma {:induction false} StrayPercentRejected(p: string, q: string)
    requires '%' !in p
    requires |q| < 2 || !IsHexDigit(q[0]) || !IsHexDigit(q[1])
    ensures Decode(p + "%" + q) == Err(UriMalformed)
    decreases |p|
  {
    var s := p + "%" + q;
    if p == [] {
      assert s == "%" + q;
      assert EscapedOctet(s, 0).None? by {
        if |s| >= 3 {
          assert s[1] == q[0] && s[2] == q[1];
        }
      }
    } else {
      assert s[0] == p[0];
      assert s[1..] == p[1..] + "%" + q;
      StrayPercentRejected(p[1..], q);
    }
  }

  /** The overlong two-octet form of `/`, "%C0%AF", is rejected instead of
      decoding to a separator. */
  lemma OverlongSlashRejected()
    ensures Decode("%C0%AF") == Err(UriMalformed)
  {
    var s := "%C0%AF";
    assert EscapedOctet(s, 0) == Some(0xC0);
    assert EscapedOctet(s, 3) == Some(0xAF);
    assert Utf8.IsContinuation(0xAF);
    assert Trailing(s, 2, 2) == Some([]);
    assert [0xAF as byte] + [] == [0xAF as byte];
    assert Trailing(s, 2, 1) == Some([0xAF as byte]);
    assert Utf8.RawValue([0xC0, 0xAF]) == 0x2F;
  }

  /** An escaped separator decodes to a real one. */
  lemma EscapedSlashDecodes()
    ensures Decode("%2F") == Ok("/")
  {
    var s := "%2F";
    assert EscapedOctet(s, 0) == Some(0x2F);
    assert Utf8.AnnouncedLength(0x2F) == 1;
    assert DecodeGroup(s) == Some(('/', 3));
    assert s[3..] == "";
    assert ['/'] + "" == "/";
  }
}

=== FILE: utf8.dfy ===
/** UTF-8 as the three runtimes in this system use it: the encoder behind
    `encodeURIComponent` and Python's `str.encode`, the strict decoder
    `decodeURIComponent` applies to the octets of a percent-escape group, and
    the lossy decoder behind Node's `Buffer.toString("utf8")` and Python's
    `bytes.decode("utf-8", "replace")`, which substitutes U+FFFD for every
    maximal ill-formed subpart (the Unicode Standard, section 3.9, table 3-7). */
module Utf8 {
  import opened Common

  /** U+FFFD REPLACEMENT CHARACTER. */
  const Replacement: char := '\U{FFFD}'

  /** Octets 10xxxxxx: the trailing octets of a multi-octet sequence. */
  predicate IsContinuation(b: byte)
  {
    0x80 <= b < 0xC0
  }

  /** The length an octet announces by its leading one bits: 1 for 0xxxxxxx
      and 2, 3, 4 for 110xxxxx, 1110xxxx, 11110xxx. A continuation octet
      (one leading one) or an octet with five or more leading ones announces
      nothing, written 0. */
  function AnnouncedLength(b: byte): (n: nat)
    ensures n <= 4
    ensures n == 1 <==> b < 0x80
  {
    if b < 0x80 then 1
    else if b < 0xC0 then 0
    else if b < 0xE0 then 2
    else if b < 0xF0 then 3
    else if b < 0xF8 then 4
    else 0
  }

  /** The shape every candidate sequence has before its value is checked:
      the first octet announces the length and the others are continuations. */
  predicate IsFramed(os: seq<byte>)
  {
    && 1 <= |os| <= 4
    && AnnouncedLength(os[0]) == |os|
    && forall i :: 1 <= i < |os| ==> IsContinuation(os[i])
  }

  /** The UTF-8 encoding of one Unicode scalar value. */
  function EncodeScalar(c: char): (os: seq<byte>)
    ensures IsFramed(os)
    ensures |os| == 1 <==> c as int < 0x80
    ensures |os| == 1 ==> os[0] as int == c as int
  {
    var v := c as int;
    var v1 := v / 64;
    var v2 := v1 / 64;
    var v3 := v2 / 64;
    if v < 0x80 then [v as byte]
    else if v < 0x800 then [(0xC0 + v1) as byte, (0x80 + v % 64) as byte]
    else if v < 0x10000 then [(0xE0 + v2) as byte, (0x80 + v1 % 64) as byte, (0x80 + v % 64) as byte]
    else [(0xF0 + v3) as byte, (0x80 + v2 % 64) as byte, (0x80 + v1 % 64) as byte, (0x80 + v % 64) as byte]
  }

  /** The number a framed sequence spells, before any validity check. */
  function RawValue(os: seq<byte>): int
    requires IsFramed(os)
  {
    var n := |os|;
    if n == 1 then os[0] as int
    else if n == 2 then (os[0] as int - 0xC0) * 64 + (os[1] as int - 0x80)
    else if n == 3 then ((os[0] as int - 0xE0) * 64 + (os[1] as int - 0x80)) * 64 + (os[2] as int - 0x80)
    else (((os[0] as int - 0xF0) * 64 + (os[1] as int - 0x80)) * 64 + (os[2] as int - 0x80)) * 64 + (os[3] as int - 0x80)
  }

  /** The value of a framed sequence when it is the shortest encoding of a
      Unicode scalar value, and None for an overlong form, a surrogate or a
      value above U+10FFFF: the check `decodeURIComponent` applies once it has
      collected the octets of an escape group. Decoding is the exact inverse
      of `EncodeScalar` on the sequences it accepts. */
  function DecodeOctets(os: seq<byte>): (r: Option<char>)
    requires IsFramed(os)
    ensures |os| == 1 ==> r == Some(os[0] as int as char)
    ensures r.Some? && |os| > 1 ==> r.value as int >= 0x80
    ensures r.Some? ==> EncodeScalar(r.value) == os
  {
    var n := |os|;
    var v := RawValue(os);
    if n == 1 then Some(v as char)
    else if n == 2 && v >= 0x80 then
      EncodeTwo(os);
      Some(v as char)
    else if n == 3 && v >= 0x800 && !(0xD800 <= v < 0xE000) then
      EncodeThree(os);
      Some(v as char)
    else if n == 4 && 0x10000 <= v < 0x110000 then
      EncodeFour(os);
      Some(v as char)
    else None
  }

  lemma EncodeTwo(os: seq<byte>)
    requires IsFramed(os) && |os| == 2 && RawValue(os) >= 0x80
    ensures 0 <= RawValue(os) < 0xD800
    ensures EncodeScalar(RawValue(os) as char) == os
  {
    var v := RawValue(os);
    var a, b := os[0] as int - 0xC0, os[1] as int - 0x80;
    assert v == a * 64 + b && 0 <= b < 64;
    assert v / 64 == a && v % 64 == b;
  }

  lemma EncodeThree(os: seq<byte>)
    requires IsFramed(os) && |os| == 3
    requires RawValue(os) >= 0x800 && !(0xD800 <= RawValue(os) < 0xE000)
    ensures 0 <= RawValue(os) < 0x10000
    ensures EncodeScalar(RawValue(os) as char) == os
  {
    var v := RawValue(os);
    var a, b, c := os[0] as int - 0xE0, os[1] as int - 0x80, os[2] as int - 0x80;
    var v1 := a * 64 + b;
    assert v == v1 * 64 + c && 0 <= c < 64;
    assert v / 64 == v1 && v % 64 == c;
    assert v1 / 64 == a && v1 % 64 == b;
  }

  lemma EncodeFour(os: seq<byte>)
    requires IsFramed(os) && |os| == 4
    requires 0x10000 <= RawValue(os) < 0x110000
    ensures EncodeScalar(RawValue(os) as char) == os
  {
    var v := RawValue(os);
    var a, b, c, d := os[0] as int - 0xF0, os[1] as int - 0x80, os[2] as int - 0x80, os[3] as int - 0x80;
    var v2 := a * 64 + b;
    var v1 := v2 * 64 + c;
    assert v == v1 * 64 + d && 0 <= d < 64;
    assert v / 64 == v1 && v % 64 == d;
    assert v1 / 64 == v2 && v1 % 64 == c;
    assert v2 / 64 == a && v2 % 64 == b;
  }

  /** Encoding then decoding one scalar value gives it back. */
  lemma DecodeEncode(c: char)
    ensures DecodeOctets(EncodeScalar(c)) == Some(c)
  {
    var os := EncodeScalar(c);
    var v := c as int;
    var v1 := v / 64;
    var v2 := v1 / 64;
    var v3 := v2 / 64;
    assert v == v1 * 64 + v % 64;
    assert v1 == v2 * 64 + v1 % 64;
    assert v2 == v3 * 64 + v2 % 64;
    assert RawValue(os) == v;
  }

  /** The octets of a whole string, as Python's `str.encode("utf-8")`. */
  function EncodeString(s: string): (os: seq<byte>)
    ensures |os| >= |s|
  {
    if s == [] then [] else EncodeScalar(s[0]) + EncodeString(s[1..])
  }

  // ---- Lossy decoding ------------------------------------------------------

  /** The length of the well-formed sequence an octet can start (table 3-7),
      0 when it starts none (0x80..0xC1 and 0xF5..0xFF). */
  function WellFormedLength(b: byte): nat
  {
    if b < 0x80 then 1
    else if b < 0xC2 then 0
    else if b < 0xE0 then 2
    else if b < 0xF0 then 3
    else if b < 0xF5 then 4
    else 0
  }

  /** Bounds table 3-7 puts on the second octet after a lead octet. */
  function SecondLow(lead: byte): byte
  {
    if lead == 0xE0 then 0xA0 else if lead == 0xF0 then 0x90 else 0x80
  }

  function SecondHigh(lead: byte): byte
  {
    if lead == 0xED then 0x9F else if lead == 0xF4 then 0x8F else 0xBF
  }

  /** How many octets at the front of `bs` form a prefix of a well-formed
      sequence, for a lead octet that starts a multi-octet one. */
  function MaximalSubpart(bs: seq<byte>): (m: nat)
    requires |bs| >= 1 && WellFormedLength(bs[0]) >= 2
    ensures 1 <= m <= WellFormedLength(bs[0]) && m <= |bs|
  {
    var n := WellFormedLength(bs[0]);
    if |bs| < 2 || !(SecondLow(bs[0]) <= bs[1] <= SecondHigh(bs[0])) then 1
    else if n == 2 then 2
    else if |bs| < 3 || !IsContinuation(bs[2]) then 2
    else if n == 3 then 3
    else if |bs| < 4 || !IsContinuation(bs[3]) then 3
    else 4
  }

  /** A sequence that table 3-7 accepts in full is one the strict decoder
      accepts too. */
  lemma TableAccepted(bs: seq<byte>)
    requires |bs| >= 1 && WellFormedLength(bs[0]) >= 2
    requires MaximalSubpart(bs) == WellFormedLength(bs[0])
    ensures IsFramed(bs[..WellFormedLength(bs[0])])
    ensures DecodeOctets(bs[..WellFormedLength(bs[0])]).Some?
  {
    var n := WellFormedLength(bs[0]);
    var os := bs[..n];
    assert IsFramed(os);
    var v := RawValue(os);
    if n == 2 {
      assert v >= 0x80;
    } else if n == 3 {
      assert v >= 0x800 && !(0xD800 <= v < 0xE000);
    } else {
      assert 0x10000 <= v < 0x110000;
    }
  }

  /** The octets of one scalar value's encoding are accepted in full by
      table 3-7. */
  lemma EncodingIsWellFormed(c: char, rest: seq<byte>)
    ensures WellFormedLength(EncodeScalar(c)[0]) == |EncodeScalar(c)|
    ensures |EncodeScalar(c)| >= 2 ==>
              MaximalSubpart(EncodeScalar(c) + rest) == |EncodeScalar(c)|
  {
    var os := EncodeScalar(c);
    DecodeEncode(c);
    var v := RawValue(os);
    assert v == c as int;
    var bs := os + rest;
    assert bs[..|os|] == os;
  }

  /** The text a lossy decoder produces from `bs`: ASCII octets stand for
      themselves, a complete well-formed sequence for its scalar value, and
      every maximal ill-formed subpart for one U+FFFD. */
  function DecodeLossy(bs: seq<byte>): (s: string)
    ensures |s| <= |bs|
    decreases |bs|
  {
    if |bs| == 0 then ""
    else if bs[0] < 0x80 then [bs[0] as int as char] + DecodeLossy(bs[1..])
    else if WellFormedLength(bs[0]) == 0 then [Replacement] + DecodeLossy(bs[1..])
    else
      var m := MaximalSubpart(bs);
      if m < WellFormedLength(bs[0]) then [Replacement] + DecodeLossy(bs[m..])
      else
        TableAccepted(bs);
        [DecodeOctets(bs[..m]).value] + DecodeLossy(bs[m..])
  }

  /** Only ASCII octets decode to ASCII characters: an ASCII text at the
      front of a lossy decoding was exactly the ASCII octets at the front of
      the input. */
  lemma {:induction false} LossyAsciiPrefix(bs: seq<byte>, a: string)
    requires IsAscii(a)
    requires StartsWith(DecodeLossy(bs), a)
    ensures |a| <= |bs| && bs[..|a|] == AsciiBytes(a)
    decreases |bs|
  {
    if |a| > 0 {
      var s := DecodeLossy(bs);
      assert s[0] == a[0];
      if bs[0] < 0x80 {
        var t := DecodeLossy(bs[1..]);
        assert s == [bs[0] as int as char] + t;
        assert StartsWith(t, a[1..]) by {
          assert t[..|a| - 1] == s[1..|a|];
        }
        LossyAsciiPrefix(bs[1..], a[1..]);
        assert bs[..|a|] == [bs[0]] + bs[1..][..|a| - 1];
      } else {
        LossyHeadNotAscii(bs);
      }
    }
  }

  /** A non-ASCII lead octet never decodes to an ASCII character. */
  lemma LossyHeadNotAscii(bs: seq<byte>)
    requires |bs| > 0 && bs[0] >= 0x80
    ensures |DecodeLossy(bs)| > 0 && !IsAsciiChar(DecodeLossy(bs)[0])
  {
  }

  /** Lossy decoding of a well-formed encoding gives the text back. */
  lemma {:induction false} LossyDecodesEncoding(s: string)
    ensures DecodeLossy(EncodeString(s)) == s
  {
    if s != [] {
      var os := EncodeScalar(s[0]);
      var rest := EncodeString(s[1..]);
      var bs := os + rest;
      EncodingIsWellFormed(s[0], rest);
      DecodeEncode(s[0]);
      assert bs[..|os|] == os;
      assert bs[|os|..] == rest;
      if |os| == 1 {
        assert bs[1..] == rest;
      }
      LossyDecodesEncoding(s[1..]);
    }
  }
}
